=== FILE: README.md ===
# Safety-briefing client logic, modelled in Dafny

This project models the decision logic of the web client of a
construction-site safety-briefing tool. Site coordinators save a daily
briefing as a draft. Truck drivers pick a language, read the briefing and
submit an acknowledgement. The model covers:

- the driver's **acknowledgement form**: five fields, the "all fields
  required" check, the payload sent to the `submitAcknowledgement`
  callable, and the status machine `idle | submitting | success |
  duplicate | error`, where a `functions/already-exists` rejection means
  "already submitted";
- the **briefing page** and its **language selector**: the per-language
  text and audio fields, the choice between stored text and placeholder
  text, the `started` gate, and the props given to the form;
- the coordinator's **voice recorder** helpers: format choice from a fixed
  priority list, the `mm:ss` duration label, and the start, stop, clear
  and `onstop` handlers;
- the **admin sign-in** page: the auth-error message table, the
  redirect/loading/form decision, and one sign-in attempt;
- the **draft briefing** form: the record a "Save Draft" writes and the
  saving state around the write.

Firebase and the browser are not modelled. Each network call, auth call
or media call is an outcome passed in (resolved or rejected with a
code). `MediaRecorder.isTypeSupported` is a predicate parameter. The clock
is an integer parameter.

Modules: `Optional` (absent values), `Machine` (event runs), `Text` (JavaScript `trim`,
`String(n)`, `padStart`, the integer part of `Number(s)`),
`AcknowledgementForm`, `LanguageSelector`, `BriefingPage`,
`VoiceRecorder`, `AdminLogin` and `BriefingForm`.

The client reaches the server through five callables named in
`src/services/api.js` (`healthCheck`, `generateBriefing`,
`transcribeAudio`, `submitAcknowledgement`, `setAdminClaim`). The server
code, `functions/src/index.js`, implements only `healthCheck`. No server
rule is modelled: every callable is an outcome supplied from outside, and
the only validation modelled is the client's own check of the five driver
fields.

Event-driven components are folded over event sequences by a small
generic module, `Machine`. Both the acknowledgement form and the briefing
page's language gate run through it, and the form's run lemmas
instantiate its lemmas for concatenation, fixed states and outputs that
satisfy a predicate.

## Model

| member | source | states |
|---|---|---|
| AcknowledgementForm.Initial | src/components/driver/AcknowledgementForm.jsx:17-25 | The form mounts with all five fields empty, status idle and no error message. |
| AcknowledgementForm.HandleChange | src/components/driver/AcknowledgementForm.jsx:27-29 | Changing a field sets that field to the new value; every other field, the status and the error message are unchanged. |
| AcknowledgementForm.MissingFieldIff | src/components/driver/AcknowledgementForm.jsx:36 | The five-way trimmed-emptiness check holds exactly when some field consists only of whitespace. |
| AcknowledgementForm.BeginSubmit | src/components/driver/AcknowledgementForm.jsx:31-56 | No call is made exactly when some field is blank; then the status is error with "All fields are required." Otherwise the status is submitting, the error is cleared, and the payload carries every field trimmed, with briefing id, version, project id and language passed through unchanged. |
| AcknowledgementForm.FinishSubmit | src/components/driver/AcknowledgementForm.jsx:57-65 | A resolved call gives success; a rejection with code `functions/already-exists` gives duplicate; every other rejection, including one without a code, gives error with the retry message. The fields are kept. |
| AcknowledgementForm.Render | src/components/driver/AcknowledgementForm.jsx:76-141 | "Thank You" shows exactly on success and "Already Submitted" exactly on duplicate. The form is shown exactly when the status is neither. Its inputs and button are disabled exactly while submitting. The error banner shows exactly in error status with a non-empty message, and it shows that message. |
| AcknowledgementForm.InputsEnabledIff | src/components/driver/AcknowledgementForm.jsx:119-141 | Typing and submitting are possible exactly in the idle and error states. |
| AcknowledgementForm.Step | src/components/driver/AcknowledgementForm.jsx:27-65 | An enabled form takes typing through the change handler and Submit through the submit handler. A pending call settles through the outcome handler. Every other event changes nothing and makes no call, so a call comes only from Submit on an enabled form. |
| AcknowledgementForm.TerminalIsFinal | src/components/driver/AcknowledgementForm.jsx:105 | Once the status is success or duplicate, no sequence of events changes the state or makes another call. |
| AcknowledgementForm.SettleTerminalIff | src/components/driver/AcknowledgementForm.jsx:57-64 | A pending call leaves the form terminal exactly when it resolved or was rejected as already existing. |
| AcknowledgementForm.CallsAreWellFormed | src/components/driver/AcknowledgementForm.jsx:36-51 | Every payload sent over any event sequence has five non-empty, already-trimmed driver fields. |
| AcknowledgementForm.StepCallWellFormed | src/components/driver/AcknowledgementForm.jsx:36-51 | The payload of a single step, if any, has five non-empty, trimmed driver fields. |
| AcknowledgementForm.SubmittingBlocksSubmit | src/components/driver/AcknowledgementForm.jsx:119-141 | While submitting, no event makes a second call and typing changes nothing. |
| AcknowledgementForm.FillFields | src/components/driver/AcknowledgementForm.jsx:17-29 | Typing one value into each of the five fields of the freshly mounted form fills exactly those values, still idle, with no call. |
| AcknowledgementForm.FillAndSubmit | src/components/driver/AcknowledgementForm.jsx:17-56 | Filling the mounted form with five non-blank values and submitting makes exactly one call, carrying the five trimmed values and the briefing id, version, project and language, and leaves the form submitting. |
| LanguageSelector.HandleTap | src/components/driver/LanguageSelector.jsx:38-72 | A card tap reports exactly that card's code, which is always one of en, pu, hi. The start callback fires exactly for a Start tap with a language selected. A tap on the disabled Start button fires no callback at all. |
| LanguageSelector.AtMostOneCardSelected | src/components/driver/LanguageSelector.jsx:39 | Two highlighted cards are the same card. |
| LanguageSelector.SelectHighlightsTappedCard | src/components/driver/LanguageSelector.jsx:39-43 | After selecting a card, exactly that card is highlighted. |
| LanguageSelector.HintMatchesStartButton | src/components/driver/LanguageSelector.jsx:70-92 | The "select a language" hint shows exactly when the Start button is disabled, that is when no language (or the empty string) is selected. |
| BriefingPage.FieldsDistinct | src/pages/driver/BriefingPage.jsx:87-98 | en, pu and hi name pairwise distinct text fields and distinct audio fields. No text field is an audio field, and none is the key an unknown code looks up. |
| BriefingPage.GetBriefingText | src/pages/driver/BriefingPage.jsx:101-105 | Without a language the English placeholder is shown. With one, the result is that language's placeholder or the stored field verbatim, and the stored field is then not blank. |
| BriefingPage.IsPlaceholderText | src/pages/driver/BriefingPage.jsx:108-112 | The preview notice shows exactly when there is no language, or the stored field is missing or blank. |
| BriefingPage.PlaceholderAgreement | src/pages/driver/BriefingPage.jsx:101-112 | When the notice shows, the text is the fallback placeholder. When it does not, a language is selected and the text is the stored field, unchanged. |
| BriefingPage.FallbackIsPlaceholder | src/pages/driver/BriefingPage.jsx:104 | Every fallback is one of the three placeholders. An unknown code whose lookup key is absent falls back to English. |
| BriefingPage.KnownLanguageText | src/pages/driver/BriefingPage.jsx:103-104 | For en, pu or hi, non-blank stored text is shown as is. Missing or blank text gives that language's own placeholder. |
| BriefingPage.AudioUrl | src/pages/driver/BriefingPage.jsx:251 | The URL is the stored value under the audio key, when present. A known language reads its own audio field, present exactly when that field is stored. No language or an unknown code reads the property "undefined". |
| BriefingPage.AudioUpdateIsolated | src/pages/driver/BriefingPage.jsx:87-112 | Storing one language's audio URL gives that language's player the URL and changes neither the text or preview notice of any language nor the other languages' audio. |
| BriefingPage.FormProps | src/pages/driver/BriefingPage.jsx:274-279 | The form gets the briefing id, the document's version or 1 when absent, the page's project and the selected language. |
| BriefingPage.GateStep | src/pages/driver/BriefingPage.jsx:219-224 | Before the start, a card tap selects exactly that card's language and nothing else. The briefing starts exactly on a Start tap with a language selected. After the start, taps change nothing. |
| BriefingPage.PickThenStart | src/pages/driver/BriefingPage.jsx:219-224 | From the initial page, tapping a card and then Start starts the briefing in that card's language. |
| BriefingPage.GateStepKeepsInv | src/pages/driver/BriefingPage.jsx:219-224 | Every tap keeps the selection among en, pu, hi and keeps "started implies a selection". |
| BriefingPage.StartedImpliesLanguage | src/pages/driver/BriefingPage.jsx:219-228 | After any sequence of taps, a started page has a selected language among en, pu, hi. |
| BriefingPage.Render | src/pages/driver/BriefingPage.jsx:184-228 | The spinner shows exactly while loading. The load error shows exactly when loaded with a non-empty error, and it shows that error's text. "No briefing" shows exactly when loaded, without error and without a briefing. With a briefing, the selector shows exactly before the start and the content exactly after it, never both. |
| BriefingPage.ContentSubmitsKnownLanguage | src/pages/driver/BriefingPage.jsx:274-279 | Once the content shows, every acknowledgement its form submits carries a language among en, pu, hi. |
| VoiceRecorder.PickSupportedMimeType | src/components/admin/VoiceRecorder.jsx:3-19 | Without MediaRecorder the result is "". Otherwise it is the first candidate, in priority order, that the browser supports, and no earlier candidate is supported. It is "" only if no candidate is supported. |
| VoiceRecorder.BlobType | src/components/admin/VoiceRecorder.jsx:80 | The blob type is never empty. It is the recorder's format when that is non-empty, and `audio/webm` otherwise. |
| VoiceRecorder.TotalSeconds | src/components/admin/VoiceRecorder.jsx:123 | For a non-negative duration the result is the number of whole seconds in it; below one second (or negative) it is 0. |
| VoiceRecorder.InitialState | src/components/admin/VoiceRecorder.jsx:22-29 | The recorder mounts idle, without error, showing the held take's duration or 0 (label 00:00) when there is none. |
| VoiceRecorder.FormatDuration | src/components/admin/VoiceRecorder.jsx:122-127 | The label is digits, a colon and exactly two digits. The seconds are below 60, and 60 × minutes + seconds equals the whole seconds, clamped at 0. The minutes carry a leading zero only when padded to two digits. Negative and sub-second input reads 00:00. |
| VoiceRecorder.TwoDigitsAtLeast | src/components/admin/VoiceRecorder.jsx:124-125 | Zero-padding to two gives digits that read back as the number: a zero and the digit below 10, and `String(n)` unchanged from 10 on. |
| VoiceRecorder.StartRecording | src/components/admin/VoiceRecorder.jsx:54-105 | Unsupported browsers and denied microphones set their error and change nothing else. The error is cleared exactly when the recorder starts; otherwise the recording flag is unchanged. A throw from the `MediaRecorder` constructor shows the denied message and changes nothing else. A throw from `start()` shows it after the new, inactive recorder and the start time are stored. When nothing throws, a recorder is recording, started now. It is asked for the first supported candidate, or no format when none is supported, and its format is what the browser reports for that request. |
| VoiceRecorder.FailedStartRecordsNothing | src/components/admin/VoiceRecorder.jsx:64-112 | After `start()` throws, the denied message shows and a later stop meets the inactive guard, so no take is produced. |
| VoiceRecorder.StopRecording | src/components/admin/VoiceRecorder.jsx:107-112 | With no recorder or an inactive one, nothing changes. Otherwise the recorder becomes inactive, keeps its format, and recording stops. |
| VoiceRecorder.OnStop | src/components/admin/VoiceRecorder.jsx:79-91 | The stop callback emits a take with a non-empty type (the recorder's own when it has one) and the elapsed time, which also becomes the displayed duration. The recorder, the recording flag, the error and the start time are unchanged. |
| VoiceRecorder.ClearRecording | src/components/admin/VoiceRecorder.jsx:114-120 | Clearing emits null and resets the duration, so the label reads 00:00. The recorder, the recording flag, the error and the start time are unchanged. |
| VoiceRecorder.ClearForgetsTake | src/components/admin/VoiceRecorder.jsx:79-120 | Clearing twice is clearing once. Clearing after a delivered take gives the same state as clearing before it. |
| VoiceRecorder.StopIdempotent | src/components/admin/VoiceRecorder.jsx:107-112 | A second stop meets the guard and changes nothing. |
| VoiceRecorder.TakeUsesPickedFormat | src/components/admin/VoiceRecorder.jsx:63-80 | Start, stop and onstop give a take timed from the start, typed by the browser's reported format or `audio/webm` when it reports none. When the browser reports the requested format, that is the first supported candidate. |
| AdminLogin.ErrorMessage | src/pages/admin/AdminLogin.jsx:7-17 | The message is never empty and is one of six fixed texts. It is the default exactly when the code is missing or not among the five listed codes. |
| AdminLogin.KnownCodes | src/pages/admin/AdminLogin.jsx:7-13 | Each listed code gets its fixed message. Invalid-credential and wrong-password give the same one. |
| AdminLogin.Render | src/pages/admin/AdminLogin.jsx:27-38 | Redirect exactly when loaded with a user, the loading screen exactly while loading, the form otherwise. |
| AdminLogin.BeginSignIn | src/pages/admin/AdminLogin.jsx:40-46 | The error is cleared and submitting is set. Sign-in gets the password unchanged and the email as `trim` leaves it, which is empty only for a blank email. |
| AdminLogin.FinishSignIn | src/pages/admin/AdminLogin.jsx:45-52 | Submitting ends in every case. Navigation happens exactly on success. A failure shows the mapped, non-empty message. |
| AdminLogin.AttemptSettles | src/pages/admin/AdminLogin.jsx:40-53 | After a whole attempt, the page is not submitting and shows an error exactly when sign-in failed. |
| BriefingForm.InitialInputs | src/components/admin/BriefingForm.jsx:8-14 | The form starts with today's date, start time 07:00 and every other field empty. |
| BriefingForm.TruckCount | src/components/admin/BriefingForm.jsx:37 | An empty, blank or unparseable truck count is stored as 0. A plain digit string is stored as the number its digits denote, leading zeros included. |
| BriefingForm.BuildDraft | src/components/admin/BriefingForm.jsx:27-43 | A saved draft is unpublished, inactive, version 1 and has no SMS sent. Each text field is the trimmed input, the truck count is `TruckCount` of its input, and project, author and date are copied. |
| BriefingForm.ResaveIsIdentity | src/components/admin/BriefingForm.jsx:29-40 | Saving a draft's own stored values again writes the identical draft. |
| BriefingForm.SaveIgnoresPadding | src/components/admin/BriefingForm.jsx:29-36 | Replacing the text inputs with their stored, trimmed forms writes the same draft. |
| BriefingForm.TruckCountOfNumber | src/components/admin/BriefingForm.jsx:37 | A typed whole number of trucks is stored as that number (for numbers up to 2^53, where `Number` is exact). |
| BriefingForm.TruckCountOfSpelling | src/components/admin/BriefingForm.jsx:37 | A whole number typed with surrounding whitespace, a `+` or `-` sign, or leading zeros ("012", " 12 ", "+12") is stored as that number, negated after `-` (for magnitudes up to 2^53). |
| BriefingForm.BeginSave | src/components/admin/BriefingForm.jsx:18-43 | A save clears the error, sets saving, keeps the inputs, and writes exactly the draft built from the current inputs for the given project and author. |
| BriefingForm.FinishSave | src/components/admin/BriefingForm.jsx:45-51 | Saving ends in every case. `onSaved` runs exactly after a successful write. A failed write shows the save error. |
| BriefingForm.SaveSettles | src/components/admin/BriefingForm.jsx:18-52 | After a whole save, the form is not saving, keeps its inputs, and shows an error exactly when `onSaved` was not called. |
| Text.Trim | src/components/driver/AcknowledgementForm.jsx:36 | The trimmed string has no whitespace at either end and is empty exactly when the input is blank. |
| Text.TrimIsMiddle | src/components/driver/AcknowledgementForm.jsx:36 | The trimmed string is the slice of the input that starts right after its leading whitespace and is followed only by whitespace. |
| Text.TrimIdempotent | src/components/driver/AcknowledgementForm.jsx:47-51 | Trimming an already trimmed value changes nothing. |
| Text.NatToDecimal | src/components/admin/VoiceRecorder.jsx:124-125 | `String(n)` is a non-empty digit string without leading zeros, one digit exactly below 10 and at most two below 100. |
| Text.DecimalRoundTrip | src/components/admin/VoiceRecorder.jsx:124-125 | Reading back the digits of `String(n)` gives n. |
| Text.ParseRendered | src/components/admin/BriefingForm.jsx:37 | `Number` applied to the decimal rendering of any integer gives that integer back. |

## Left out

- Server callables (`submitAcknowledgement`, `setAdminClaim`, `transcribeAudio`, `generateBriefing`): only their names appear in `src/services/api.js`. Their implementation is not part of this model. The client sees only a resolved call or a rejection code.
- The health check in `functions/src/index.js`: it returns a constant message with a wall-clock timestamp.
- Firestore reads and writes (the briefing query, `addDoc`, the home page and dashboard listings): network I/O. Each is an outcome passed into the state machines.
- Auth plumbing (`useAuth`, sign-out, route guards): session state owned by Firebase. The login page receives `loading` and "has a user" as inputs.
- `AudioPlayer.jsx` time formatting and progress: floating-point media-element time.
- Media capture (`getUserMedia`, blobs, object URLs, stopping stream tracks, the unmount cleanup): browser APIs. The microphone grant, the format check, the format a recorder reports and the time are parameters.
- Recorder buttons: which of Start / Stop / Clear / Re-record is shown is not modelled. The handlers are modelled as callable in any state.
- Dates in the draft form (`TODAY`, `new Date(...)`, `Timestamp.fromDate`, `createdAt`, `updatedAt`): clock- and timezone-dependent. `today` is a parameter, and `expectedStartTime` is not part of the modelled record.
- Presentation components (`PDFDocumentList.jsx`, `ProjectCard.jsx`, `App.jsx`) and all styling and markup.
- Placeholder briefing texts: modelled as three distinct stand-in constants. Their wording is not modelled.
- BriefingForm.TruckCount: models `Number(s) || 0` only for optionally signed decimal integers. Every other spelling that `Number` accepts (fractions, exponents, hexadecimal, `Infinity`) is stored as 0 here rather than as its value. This includes integer entries such as "10.0" or "1e1", which `Number` reads as 10. Integers are also kept exact: `Number` rounds a whole number beyond 2^53 to the nearest double ("9007199254740993" becomes 9007199254740992), which is not modelled.
- BriefingPage.GetBriefingText: language codes that are `Object.prototype` member names (`toString`, `constructor`) are not modelled. Every other unknown code looks up the key "undefined", as JavaScript does.
- AdminLogin.ErrorMessage: error codes that are `Object.prototype` member names would return a function from the table lookup in JavaScript. They are treated as unknown codes here.
- VoiceRecorder.FormatDuration: uses exact integer division for `Math.floor(ms / 1000)`. This matches the floating-point division for every duration far below 2^53 ms.
- Briefing document fields that hold non-string values (a number or `null` in a text or audio field) are not modelled. The document's text and audio fields are a map of strings, and absent means missing or `null`.

=== FILE: acknowledgement_form.dfy ===
/** The driver's acknowledgement form: five text fields, a client-side
    "all fields required" check, the submission payload handed to the
    `submitAcknowledgement` callable, and the status machine
    idle | submitting | success | duplicate | error that drives the view.
    The callable itself is an outcome fed in from outside. */
module AcknowledgementForm {

  import opened Optional
  import opened Text
  import Machine

  datatype Field = FirstName | LastName | Company | UnitNumber | Phone

  /** The form fields, in the order the form renders them. */
  const Fields: seq<Field> := [FirstName, LastName, Company, UnitNumber, Phone]

  datatype FormFields = FormFields(
    firstName: string,
    lastName: string,
    company: string,
    unitNumber: string,
    phone: string)
  {
    function Get(f: Field): string {
      match f
      case FirstName => firstName
      case LastName => lastName
      case Company => company
      case UnitNumber => unitNumber
      case Phone => phone
    }

    /** The record with field `f` replaced: `{ ...prev, [field]: value }`. */
    function Set(f: Field, v: string): (r: FormFields)
      ensures r.Get(f) == v
      ensures forall g :: g != f ==> r.Get(g) == Get(g)
    {
      match f
      case FirstName => this.(firstName := v)
      case LastName => this.(lastName := v)
      case Company => this.(company := v)
      case UnitNumber => this.(unitNumber := v)
      case Phone => this.(phone := v)
    }
  }

  datatype Status = Idle | Submitting | Success | Duplicate | Error

  /** `success` and `duplicate` replace the form by a final message. */
  predicate IsTerminal(status: Status) {
    status == Success || status == Duplicate
  }

  datatype AckState = AckState(form: FormFields, status: Status, errorMessage: string)

  /** What the page passes in: the briefing being acknowledged and the
      language the driver chose (`null` when none). */
  datatype Props = Props(
    briefingId: string,
    briefingVersion: int,
    projectId: string,
    selectedLanguage: Option<string>)

  /** The argument object of the `submitAcknowledgement` call. */
  datatype Submission = Submission(
    firstName: string,
    lastName: string,
    company: string,
    unitNumber: string,
    phone: string,
    briefingId: string,
    briefingVersion: int,
    projectId: string,
    language: Option<string>)

  /** How the call settled: resolved, or rejected with an error whose `code`
      may be missing. */
  datatype CallOutcome = Resolved | Rejected(code: Option<string>)

  const RequiredMessage: string := "All fields are required."
  const RetryMessage: string := "Something went wrong. Please try again."
  const AlreadyExistsCode: string := "functions/already-exists"

  const EmptyForm: FormFields := FormFields("", "", "", "", "")

  /** The state the component mounts with. */
  function Initial(): (s: AckState)
    ensures forall i :: 0 <= i < |Fields| ==> s.form.Get(Fields[i]) == ""
    ensures s.status == Idle && s.errorMessage == ""
  {
    AckState(EmptyForm, Idle, "")
  }

  /** `handleChange(field, value)`: only `field` changes. */
  function HandleChange(s: AckState, f: Field, v: string): (r: AckState)
    ensures r.form.Get(f) == v
    ensures forall g :: g != f ==> r.form.Get(g) == s.form.Get(g)
    ensures r.status == s.status && r.errorMessage == s.errorMessage
  {
    s.(form := s.form.Set(f, v))
  }

  /** Some field is empty once trimmed. */
  predicate MissingField(form: FormFields) {
    || Trim(form.firstName) == "" || Trim(form.lastName) == ""
    || Trim(form.company) == "" || Trim(form.unitNumber) == ""
    || Trim(form.phone) == ""
  }

  function BuildSubmission(form: FormFields, props: Props): Submission {
    Submission(
      Trim(form.firstName), Trim(form.lastName), Trim(form.company),
      Trim(form.unitNumber), Trim(form.phone),
      props.briefingId, props.briefingVersion, props.projectId,
      props.selectedLanguage)
  }

  /** The synchronous part of `handleSubmit`: the new state and the call it
      makes, if any. */
  datatype SubmitStart = SubmitStart(next: AckState, call: Option<Submission>)

  function BeginSubmit(s: AckState, props: Props): (r: SubmitStart)
    // a blank field stops the submission with the required-fields error
    ensures r.call == None <==> exists f :: IsBlank(s.form.Get(f))
    ensures r.call == None ==> r.next == AckState(s.form, Error, RequiredMessage)
    // otherwise the form goes to submitting with the error cleared
    ensures r.call != None ==> r.next == AckState(s.form, Submitting, "")
    // and the payload carries every field trimmed and the props unchanged
    ensures r.call != None ==>
      && (forall f :: SubmittedField(r.call.value, f) == Trim(s.form.Get(f)))
      && r.call.value.briefingId == props.briefingId
      && r.call.value.briefingVersion == props.briefingVersion
      && r.call.value.projectId == props.projectId
      && r.call.value.language == props.selectedLanguage
  {
    MissingFieldIff(s.form);
    if MissingField(s.form) then
      SubmitStart(s.(status := Error, errorMessage := RequiredMessage), None)
    else
      var p := BuildSubmission(s.form, props);
      BuildSubmissionFields(s.form, props);
      SubmitStart(s.(status := Submitting, errorMessage := ""), Some(p))
  }

  lemma BuildSubmissionFields(form: FormFields, props: Props)
    ensures forall f :: SubmittedField(BuildSubmission(form, props), f) == Trim(form.Get(f))
  {
    forall f ensures SubmittedField(BuildSubmission(form, props), f) == Trim(form.Get(f)) {
      match f
      case FirstName =>
      case LastName =>
      case Company =>
      case UnitNumber =>
      case Phone =>
    }
  }

  /** `handleSubmit`'s five-way check is "some field is blank". */
  lemma MissingFieldIff(form: FormFields)
    ensures MissingField(form) <==> exists f :: IsBlank(form.Get(f))
  {
    if MissingField(form) {
      if Trim(form.firstName) == "" { assert IsBlank(form.Get(FirstName)); }
      else if Trim(form.lastName) == "" { assert IsBlank(form.Get(LastName)); }
      else if Trim(form.company) == "" { assert IsBlank(form.Get(Company)); }
      else if Trim(form.unitNumber) == "" { assert IsBlank(form.Get(UnitNumber)); }
      else { assert IsBlank(form.Get(Phone)); }
    } else {
      forall f ensures !IsBlank(form.Get(f)) {
        match f
        case FirstName =>
        case LastName =>
        case Company =>
        case UnitNumber =>
        case Phone =>
      }
    }
  }

  /** The value the payload carries for one of the five form fields. */
  function SubmittedField(p: Submission, f: Field): string {
    match f
    case FirstName => p.firstName
    case LastName => p.lastName
    case Company => p.company
    case UnitNumber => p.unitNumber
    case Phone => p.phone
  }

  /** The asynchronous part of `handleSubmit`, once the call settles. */
  function FinishSubmit(s: AckState, outcome: CallOutcome): (r: AckState)
    ensures r.form == s.form
    ensures r.status == Success <==> outcome == Resolved
    ensures r.status == Duplicate <==> outcome == Rejected(Some(AlreadyExistsCode))
    ensures r.status == Error <==> !IsTerminal(r.status)
    ensures r.status == Error ==> r.errorMessage == RetryMessage
    ensures r.status != Error ==> r.errorMessage == s.errorMessage
  {
    match outcome
    case Resolved => s.(status := Success)
    case Rejected(code) =>
      if code == Some(AlreadyExistsCode) then s.(status := Duplicate)
      else s.(status := Error, errorMessage := RetryMessage)
  }

  // -----------------------------------------------------------------------
  // What the driver sees
  // -----------------------------------------------------------------------

  datatype View =
    | ThankYou
    | AlreadySubmitted
    | FormView(inputsDisabled: bool, shownError: Option<string>)

  /** The view for a state: the final messages for success and duplicate,
      otherwise the form, disabled while submitting, with the error banner
      when the status is error and the message is not empty. */
  function Render(s: AckState): (v: View)
    ensures v == ThankYou <==> s.status == Success
    ensures v == AlreadySubmitted <==> s.status == Duplicate
    ensures v.FormView? <==> !IsTerminal(s.status)
    ensures v.FormView? ==> (v.inputsDisabled <==> s.status == Submitting)
    ensures v.FormView? ==> (v.shownError.Some? <==> s.status == Error && s.errorMessage != "")
    ensures v.FormView? && v.shownError.Some? ==> v.shownError.value == s.errorMessage
  {
    match s.status
    case Success => ThankYou
    case Duplicate => AlreadySubmitted
    case _ =>
      FormView(
        s.status == Submitting,
        if s.status == Error && s.errorMessage != "" then Some(s.errorMessage) else None)
  }

  // -----------------------------------------------------------------------
  // The form as an event-driven machine
  // -----------------------------------------------------------------------

  /** Typing in a field, submitting the form, or the pending call settling. */
  datatype Event = Change(field: Field, value: string) | Submit | Settle(outcome: CallOutcome)

  /** Typing and submitting need an enabled form on screen. */
  predicate InputsEnabled(s: AckState) {
    Render(s).FormView? && !Render(s).inputsDisabled
  }

  /** The form accepts input exactly in the idle and error states. */
  lemma InputsEnabledIff(s: AckState)
    ensures InputsEnabled(s) <==> s.status == Idle || s.status == Error
  {
  }

  datatype StepResult = StepResult(next: AckState, call: Option<Submission>)

  /** One event. Events the view cannot deliver leave the state unchanged:
      there are no inputs or button in the final views, both are disabled
      while submitting, and only a pending call can settle. */
  function Step(s: AckState, props: Props, e: Event): (r: StepResult)
    ensures r.call != None ==> e == Submit && InputsEnabled(s)
    // an enabled form takes typing and submission through the handlers
    ensures InputsEnabled(s) && e.Change? ==> r == StepResult(HandleChange(s, e.field, e.value), None)
    ensures InputsEnabled(s) && e == Submit ==>
      r == StepResult(BeginSubmit(s, props).next, BeginSubmit(s, props).call)
    // a pending call settles through FinishSubmit
    ensures s.status == Submitting && e.Settle? ==> r == StepResult(FinishSubmit(s, e.outcome), None)
    // every other event is ignored
    ensures !(InputsEnabled(s) && !e.Settle?) && !(s.status == Submitting && e.Settle?) ==> r == StepResult(s, None)
  {
    match e
    case Change(f, v) =>
      if InputsEnabled(s) then StepResult(HandleChange(s, f, v), None) else StepResult(s, None)
    case Submit =>
      if InputsEnabled(s) then
        var start := BeginSubmit(s, props);
        StepResult(start.next, start.call)
      else StepResult(s, None)
    case Settle(outcome) =>
      if s.status == Submitting then StepResult(FinishSubmit(s, outcome), None) else StepResult(s, None)
  }

  /** The calls one step makes: none, or its one payload. */
  function Emitted(r: StepResult): (calls: seq<Submission>)
    ensures |calls| <= 1
    ensures calls == [] <==> r.call == None
    ensures calls != [] ==> calls[0] == r.call.value
  {
    if r.call.Some? then [r.call.value] else []
  }

  /** The form's step, as a transition of the generic event machine. */
  function Transition(props: Props): (AckState, Event) -> (AckState, seq<Submission>) {
    (s: AckState, e: Event) => var r := Step(s, props, e); (r.next, Emitted(r))
  }

  /** The state after a sequence of events, and every call made on the way. */
  function Run(s: AckState, props: Props, events: seq<Event>): (AckState, seq<Submission>) {
    Machine.Run(Transition(props), s, events)
  }

  /** Once a state is terminal no event changes it and no further call is
      made: a driver cannot acknowledge twice from the same form. */
  lemma TerminalIsFinal(s: AckState, props: Props, events: seq<Event>)
    requires IsTerminal(s.status)
    ensures Run(s, props, events) == (s, [])
  {
    forall e ensures Transition(props)(s, e) == (s, []) {
      assert Step(s, props, e) == StepResult(s, None);
    }
    Machine.RunFixed(Transition(props), s, events);
  }

  /** A settled call leaves the form terminal exactly when it succeeded or
      the server reported the acknowledgement as already existing. */
  lemma SettleTerminalIff(s: AckState, props: Props, outcome: CallOutcome)
    requires s.status == Submitting
    ensures IsTerminal(Step(s, props, Settle(outcome)).next.status)
        <==> outcome == Resolved || outcome == Rejected(Some(AlreadyExistsCode))
  {
  }

  /** Every payload the form ever sends carries five non-empty, already
      trimmed driver fields. */
  lemma CallsAreWellFormed(s: AckState, props: Props, events: seq<Event>)
    ensures forall c :: c in Run(s, props, events).1 ==> WellFormed(c)
  {
    forall x, e ensures forall c :: c in Transition(props)(x, e).1 ==> WellFormed(c) {
      TransitionCallsWellFormed(x, props, e);
    }
    Machine.RunOutputs(Transition(props), WellFormed, s, events);
  }

  lemma TransitionCallsWellFormed(s: AckState, props: Props, e: Event)
    ensures forall c :: c in Transition(props)(s, e).1 ==> WellFormed(c)
  {
    var r := Step(s, props, e);
    assert Transition(props)(s, e).1 == Emitted(r);
    StepCallWellFormed(s, props, e);
    EmittedWellFormed(r);
  }

  lemma EmittedWellFormed(r: StepResult)
    requires r.call.Some? ==> WellFormed(r.call.value)
    ensures forall c :: c in Emitted(r) ==> WellFormed(c)
  {
  }

  lemma StepCallWellFormed(s: AckState, props: Props, e: Event)
    ensures Step(s, props, e).call != None ==> WellFormed(Step(s, props, e).call.value)
  {
    if Step(s, props, e).call != None {
      assert !MissingField(s.form);
      TrimIdempotent(s.form.firstName);
      TrimIdempotent(s.form.lastName);
      TrimIdempotent(s.form.company);
      TrimIdempotent(s.form.unitNumber);
      TrimIdempotent(s.form.phone);
    }
  }

  /** One more event after a run that made no call. */
  lemma RunThen(s0: AckState, props: Props, before: seq<Event>, s: AckState, e: Event)
    requires Run(s0, props, before) == (s, [])
    ensures Run(s0, props, before + [e]) == Transition(props)(s, e)
  {
    var t := Transition(props);
    Machine.RunOne(t, s, e);
    Machine.RunAppend(t, s0, before, [e]);
    assert Machine.Run(t, s0, before) == (s, []);
    assert [] + t(s, e).1 == t(s, e).1;
  }

  /** Typing into an idle form after a run that made no call. */
  lemma TypeAfter(s0: AckState, props: Props, before: seq<Event>, s: AckState, f: Field, v: string)
    requires Run(s0, props, before) == (s, [])
    requires s.status == Idle
    ensures Run(s0, props, before + [Change(f, v)]) == (HandleChange(s, f, v), [])
  {
    InputsEnabledIff(s);
    assert Step(s, props, Change(f, v)) == StepResult(HandleChange(s, f, v), None);
    RunThen(s0, props, before, s, Change(f, v));
  }

  /** Typing one value into each field, in the order the form shows them. */
  function Typing(first: string, last: string, company: string, unit: string, phone: string): seq<Event> {
    [Change(FirstName, first), Change(LastName, last), Change(Company, company),
     Change(UnitNumber, unit), Change(Phone, phone)]
  }

  /** Typing the five values into the mounted form fills it, with no call. */
  lemma FillFields(props: Props, first: string, last: string, company: string, unit: string, phone: string)
    ensures Run(Initial(), props, Typing(first, last, company, unit, phone))
      == (AckState(FormFields(first, last, company, unit, phone), Idle, ""), [])
  {
    var s0 := Initial();
    var e1, e2, e3, e4, e5 := Change(FirstName, first), Change(LastName, last), Change(Company, company),
                              Change(UnitNumber, unit), Change(Phone, phone);
    assert Run(s0, props, []) == (s0, []);
    TypeAfter(s0, props, [], s0, FirstName, first);
    var s1 := HandleChange(s0, FirstName, first);
    assert [] + [e1] == [e1];
    TypeAfter(s0, props, [e1], s1, LastName, last);
    var s2 := HandleChange(s1, LastName, last);
    assert [e1] + [e2] == [e1, e2];
    TypeAfter(s0, props, [e1, e2], s2, Company, company);
    var s3 := HandleChange(s2, Company, company);
    assert [e1, e2] + [e3] == [e1, e2, e3];
    TypeAfter(s0, props, [e1, e2, e3], s3, UnitNumber, unit);
    var s4 := HandleChange(s3, UnitNumber, unit);
    assert [e1, e2, e3] + [e4] == [e1, e2, e3, e4];
    TypeAfter(s0, props, [e1, e2, e3, e4], s4, Phone, phone);
    assert [e1, e2, e3, e4] + [e5] == [e1, e2, e3, e4, e5];
  }

  /** Submitting an idle, complete form after a run that made no call. */
  lemma SubmitAfter(s0: AckState, props: Props, before: seq<Event>, s: AckState)
    requires Run(s0, props, before) == (s, [])
    requires s.status == Idle && !MissingField(s.form)
    ensures Run(s0, props, before + [Submit])
      == (AckState(s.form, Submitting, ""), [BuildSubmission(s.form, props)])
  {
    InputsEnabledIff(s);
    assert Step(s, props, Submit)
      == StepResult(AckState(s.form, Submitting, ""), Some(BuildSubmission(s.form, props)));
    RunThen(s0, props, before, s, Submit);
  }

  /** Five non-blank values make a complete form. */
  lemma NonBlankComplete(first: string, last: string, company: string, unit: string, phone: string)
    requires !IsBlank(first) && !IsBlank(last) && !IsBlank(company) && !IsBlank(unit) && !IsBlank(phone)
    ensures !MissingField(FormFields(first, last, company, unit, phone))
  {
    MissingFieldIff(FormFields(first, last, company, unit, phone));
  }

  /** The happy path: from the mounted form, filling in the five fields
      with non-blank values and submitting makes exactly one call, which
      carries the trimmed values, and leaves the form submitting. */
  lemma FillAndSubmit(props: Props, first: string, last: string, company: string, unit: string, phone: string)
    requires !IsBlank(first) && !IsBlank(last) && !IsBlank(company) && !IsBlank(unit) && !IsBlank(phone)
    ensures var run := Run(Initial(), props, Typing(first, last, company, unit, phone) + [Submit]);
      && run.0 == AckState(FormFields(first, last, company, unit, phone), Submitting, "")
      && run.1 == [Submission(Trim(first), Trim(last), Trim(company), Trim(unit), Trim(phone),
                              props.briefingId, props.briefingVersion, props.projectId, props.selectedLanguage)]
  {
    var filled := AckState(FormFields(first, last, company, unit, phone), Idle, "");
    FillFields(props, first, last, company, unit, phone);
    NonBlankComplete(first, last, company, unit, phone);
    SubmitAfter(Initial(), props, Typing(first, last, company, unit, phone), filled);
  }

  /** A driver field as the server receives it: non-empty and trimmed. */
  predicate WellFormedField(v: string) {
    v != "" && Trim(v) == v
  }

  predicate WellFormed(c: Submission) {
    && WellFormedField(c.firstName) && WellFormedField(c.lastName)
    && WellFormedField(c.company) && WellFormedField(c.unitNumber)
    && WellFormedField(c.phone)
  }

  /** While a submission is pending, no event makes a second call and typing
      changes nothing: only the outcome moves the form on. */
  lemma SubmittingBlocksSubmit(s: AckState, props: Props, e: Event)
    requires s.status == Submitting
    ensures Step(s, props, e).call == None
    ensures e.Change? ==> Step(s, props, e).next == s
  {
  }
}

=== FILE: admin_login.dfy ===
/** The coordinator sign-in page: the auth-error message table, which of
    redirect / loading / form the page renders, and one sign-in attempt.
    The auth service is an outcome fed in from outside. */
module AdminLogin {

  import opened Optional
  import opened Text

  const InvalidCredentials: string := "Invalid email or password."
  const NoAccount: string := "No account found with this email."
  const TooManyAttempts: string := "Too many failed attempts. Please try again later."
  const NetworkError: string := "Network error. Please check your connection."
  const DefaultMessage: string := "Sign-in failed. Please try again."

  /** `ERROR_MESSAGES`: the auth error codes with a message of their own. */
  const ErrorMessages: map<string, string> := map[
    "auth/invalid-credential" := InvalidCredentials,
    "auth/user-not-found" := NoAccount,
    "auth/wrong-password" := InvalidCredentials,
    "auth/too-many-requests" := TooManyAttempts,
    "auth/network-request-failed" := NetworkError
  ]

  /** `getErrorMessage(code)`: the table's message, or the default for any
      other code and for a missing one. */
  function ErrorMessage(code: Option<string>): (r: string)
    ensures r != ""
    ensures r in {InvalidCredentials, NoAccount, TooManyAttempts, NetworkError, DefaultMessage}
    ensures r == DefaultMessage <==> code.None? || code.value !in ErrorMessages
  {
    if code.Some? && code.value in ErrorMessages then ErrorMessages[code.value] else DefaultMessage
  }

  /** The five listed codes get their fixed messages; the two credential
      failures are indistinguishable to the user. */
  lemma KnownCodes()
    ensures ErrorMessage(Some("auth/invalid-credential")) == InvalidCredentials
    ensures ErrorMessage(Some("auth/wrong-password")) == InvalidCredentials
    ensures ErrorMessage(Some("auth/user-not-found")) == NoAccount
    ensures ErrorMessage(Some("auth/too-many-requests")) == TooManyAttempts
    ensures ErrorMessage(Some("auth/network-request-failed")) == NetworkError
  {
  }

  /** What the page renders. */
  datatype LoginView = RedirectToDashboard | LoadingScreen | SignInForm

  /** A signed-in user is redirected once auth has loaded; while loading the
      page waits; otherwise it shows the form. */
  function Render(loading: bool, hasUser: bool): (v: LoginView)
    ensures v == RedirectToDashboard <==> !loading && hasUser
    ensures v == LoadingScreen <==> loading
    ensures v == SignInForm <==> !loading && !hasUser
  {
    if !loading && hasUser then RedirectToDashboard
    else if loading then LoadingScreen
    else SignInForm
  }

  datatype LoginState = LoginState(email: string, password: string, error: string, submitting: bool)

  /** The arguments of `signInWithEmailAndPassword`. */
  datatype Credentials = Credentials(email: string, password: string)

  /** How the sign-in call settled; a rejection may lack a code. */
  datatype SignInOutcome = SignedIn | AuthFailed(code: Option<string>)

  /** The synchronous start of an attempt: clear the error, mark submitting,
      and send the email trimmed and the password as typed. */
  function BeginSignIn(s: LoginState): (r: (LoginState, Credentials))
    ensures r.0.error == "" && r.0.submitting
    ensures r.0.email == s.email && r.0.password == s.password
    ensures r.1.password == s.password
    ensures r.1.email == Trim(s.email)
    ensures IsTrimmed(r.1.email) && (r.1.email == "" <==> IsBlank(s.email))
    ensures IsTrimmed(s.email) ==> r.1.email == s.email
  {
    var t := Trim(s.email);
    TrimOfTrimmedIf(s.email);
    (s.(error := "", submitting := true), Credentials(t, s.password))
  }

  /** The end of an attempt: navigate to the dashboard on success, show the
      mapped message on failure, and in every case stop submitting. */
  function FinishSignIn(s: LoginState, outcome: SignInOutcome): (r: (LoginState, bool))
    ensures !r.0.submitting
    ensures r.1 <==> outcome == SignedIn
    ensures outcome == SignedIn ==> r.0.error == s.error
    ensures outcome.AuthFailed? ==> r.0.error == ErrorMessage(outcome.code) && r.0.error != ""
  {
    match outcome
    case SignedIn => (s.(submitting := false), true)
    case AuthFailed(code) => (s.(error := ErrorMessage(code), submitting := false), false)
  }

  /** A whole attempt: whatever the outcome, the page is no longer
      submitting, and it shows an error exactly when sign-in failed. */
  lemma AttemptSettles(s: LoginState, outcome: SignInOutcome)
    ensures var after := FinishSignIn(BeginSignIn(s).0, outcome);
      && !after.0.submitting
      && (after.0.error == "" <==> outcome == SignedIn)
      && after.0.email == s.email && after.0.password == s.password
  {
  }
}

=== FILE: briefing_form.dfy ===
/** The coordinator's "Save Draft" form: the briefing record it writes and
    the saving / error state around the write. The clock-derived fields
    (`expectedStartTime`, `createdAt`, `updatedAt`) and the write itself are
    not modelled; the write is an outcome fed in from outside. */
module BriefingForm {

  import opened Optional
  import opened Text

  const DefaultStartTime: string := "07:00"
  const SaveFailedMessage: string := "Failed to save briefing. Please try again."

  /** The form's inputs, as the text the fields hold. */
  datatype Inputs = Inputs(
    briefingDate: string,
    textInput: string,
    ccPhone: string,
    dispatchName: string,
    dispatchPhone: string,
    expectedTrucks: string,
    startTime: string)

  /** The inputs the form mounts with; `today` is the date it was loaded. */
  function InitialInputs(today: string): (i: Inputs)
    ensures i.startTime == DefaultStartTime && i.briefingDate == today
    ensures i.textInput == i.ccPhone == i.dispatchName == i.dispatchPhone == i.expectedTrucks == ""
  {
    Inputs(today, "", "", "", "", "", DefaultStartTime)
  }

  /** The briefing document a draft save writes. */
  datatype Draft = Draft(
    projectId: string,
    originalInput: string,
    status: string,
    isActive: bool,
    briefingDate: string,
    createdBy: string,
    ccPhone: string,
    dispatchName: string,
    dispatchPhone: string,
    expectedTrucks: int,
    smsSent: bool,
    version: int)

  /** `Number(expectedTrucks) || 0`: the parsed number, 0 when it does not
      parse. */
  function TruckCount(s: string): (n: int)
    ensures IsBlank(s) ==> n == 0
    ensures ParseInteger(s).None? ==> n == 0
    // a plain digit string is stored as the number it denotes
    ensures s != [] && AllDigits(s) ==> n == DecimalValue(s)
  {
    ParseDigitsIf(s);
    ParseInteger(s).GetOr(0)
  }

  /** A fresh draft: not published, inactive, version 1, no SMS sent. */
  predicate IsFreshDraft(d: Draft) {
    d.status == "draft" && !d.isActive && d.version == 1 && !d.smsSent
  }

  /** The text fields are stored without surrounding whitespace. */
  predicate TextFieldsTrimmed(d: Draft) {
    IsTrimmed(d.originalInput) && IsTrimmed(d.ccPhone) && IsTrimmed(d.dispatchName) && IsTrimmed(d.dispatchPhone)
  }

  function BuildDraft(i: Inputs, projectId: string, userEmail: string): (d: Draft)
    ensures IsFreshDraft(d) && TextFieldsTrimmed(d)
    ensures d.projectId == projectId && d.createdBy == userEmail && d.briefingDate == i.briefingDate
    ensures d.expectedTrucks == TruckCount(i.expectedTrucks)
    ensures d.originalInput == Trim(i.textInput) && d.ccPhone == Trim(i.ccPhone)
    ensures d.dispatchName == Trim(i.dispatchName) && d.dispatchPhone == Trim(i.dispatchPhone)
    ensures (d.originalInput == "" <==> IsBlank(i.textInput)) && (d.ccPhone == "" <==> IsBlank(i.ccPhone))
    ensures (d.dispatchName == "" <==> IsBlank(i.dispatchName)) && (d.dispatchPhone == "" <==> IsBlank(i.dispatchPhone))
  {
    Draft(
      projectId, Trim(i.textInput), "draft", false, i.briefingDate, userEmail,
      Trim(i.ccPhone), Trim(i.dispatchName), Trim(i.dispatchPhone),
      TruckCount(i.expectedTrucks), false, 1)
  }

  /** The form filled in with a stored draft's own values. */
  function InputsOf(d: Draft): Inputs {
    Inputs(d.briefingDate, d.originalInput, d.ccPhone, d.dispatchName, d.dispatchPhone,
           IntToDecimal(d.expectedTrucks), DefaultStartTime)
  }

  /** Saving a draft's own values again writes the same draft: trimming and
      the truck-count parse lose nothing a saved draft holds. */
  lemma {:induction false} ResaveIsIdentity(d: Draft)
    requires IsFreshDraft(d) && TextFieldsTrimmed(d)
    ensures BuildDraft(InputsOf(d), d.projectId, d.createdBy) == d
  {
    TrimOfTrimmed(d.originalInput);
    TrimOfTrimmed(d.ccPhone);
    TrimOfTrimmed(d.dispatchName);
    TrimOfTrimmed(d.dispatchPhone);
    ParseRendered(d.expectedTrucks);
  }

  /** Padding with whitespace changes no stored text. */
  lemma {:induction false} SaveIgnoresPadding(i: Inputs, projectId: string, userEmail: string)
    ensures var d := BuildDraft(i, projectId, userEmail);
      BuildDraft(i.(textInput := d.originalInput, ccPhone := d.ccPhone,
                    dispatchName := d.dispatchName, dispatchPhone := d.dispatchPhone),
                 projectId, userEmail) == d
  {
    TrimIdempotent(i.textInput);
    TrimIdempotent(i.ccPhone);
    TrimIdempotent(i.dispatchName);
    TrimIdempotent(i.dispatchPhone);
  }

  /** A typed whole number of trucks is stored as that number. */
  lemma TruckCountOfNumber(n: nat)
    ensures TruckCount(NatToDecimal(n)) == n
  {
    ParseRendered(n);
  }

  /** Every way of typing a whole number that `Number` reads as that number
      (surrounding whitespace, a sign, leading zeros) stores it. */
  lemma TruckCountOfSpelling(w1: string, sign: string, z: string, n: nat, w2: string)
    requires IsBlank(w1) && IsBlank(w2)
    requires sign == "" || sign == "-" || sign == "+"
    requires forall i :: 0 <= i < |z| ==> z[i] == '0'
    ensures TruckCount(w1 + sign + z + NatToDecimal(n) + w2) == if sign == "-" then 0 - n else n
  {
    var d := z + NatToDecimal(n);
    assert d != [] && AllDigits(d) && DecimalValue(d) == n by {
      LeadingZeros(z, NatToDecimal(n));
      DecimalRoundTrip(n);
    }
    var x := w1 + sign + z + NatToDecimal(n) + w2;
    assert x == w1 + sign + d + w2;
    TruckCountOfDigits(x, w1, sign, d, w2, n);
  }

  lemma TruckCountOfDigits(x: string, w1: string, sign: string, d: string, w2: string, v: nat)
    requires IsBlank(w1) && IsBlank(w2)
    requires sign == "" || sign == "-" || sign == "+"
    requires d != [] && AllDigits(d) && DecimalValue(d) == v
    requires x == w1 + sign + d + w2
    ensures TruckCount(x) == if sign == "-" then 0 - v else v
  {
    ParseSpelled(x, w1, sign, d, w2);
  }

  // -----------------------------------------------------------------------
  // The save
  // -----------------------------------------------------------------------

  datatype FormState = FormState(inputs: Inputs, saving: bool, error: string)

  /** How the write settled. */
  datatype WriteOutcome = Written | WriteFailed

  /** The start of `handleSubmit`: clear the error, mark saving, and produce
      the record to write. */
  function BeginSave(s: FormState, projectId: string, userEmail: string): (r: (FormState, Draft))
    ensures r.0 == s.(saving := true, error := "")
    ensures IsFreshDraft(r.1) && r.1.projectId == projectId && r.1.createdBy == userEmail
    ensures r.1 == BuildDraft(s.inputs, projectId, userEmail)
  {
    (s.(saving := true, error := ""), BuildDraft(s.inputs, projectId, userEmail))
  }

  /** The end of `handleSubmit`: call `onSaved` only after a successful
      write, show the error otherwise, and stop saving either way. */
  function FinishSave(s: FormState, outcome: WriteOutcome): (r: (FormState, bool))
    ensures !r.0.saving && r.0.inputs == s.inputs
    ensures r.1 <==> outcome == Written
    ensures outcome == WriteFailed ==> r.0.error == SaveFailedMessage
    ensures outcome == Written ==> r.0.error == s.error
  {
    match outcome
    case Written => (s.(saving := false), true)
    case WriteFailed => (s.(saving := false, error := SaveFailedMessage), false)
  }

  /** A whole save: the form ends not saving, keeps its inputs, and shows an
      error exactly when `onSaved` was not called. */
  lemma SaveSettles(s: FormState, projectId: string, userEmail: string, outcome: WriteOutcome)
    ensures var after := FinishSave(BeginSave(s, projectId, userEmail).0, outcome);
      && !after.0.saving && after.0.inputs == s.inputs
      && (after.0.error == "" <==> after.1)
  {
  }
}

=== FILE: briefing_page.dfy ===
/** The driver's briefing page: which stored text and audio the selected
    language shows (with placeholders while no generated text exists), the
    `started` gate between the language selector and the briefing content,
    and the props handed to the acknowledgement form. The Firestore query is
    an outcome fed in from outside. */
module BriefingPage {

  import opened Optional
  import opened Text
  import opened LanguageSelector
  import AcknowledgementForm
  import Machine

  /** The Firestore field holding the generated text for a language code. */
  function LangField(code: string): Option<string> {
    if code == "en" then Some("generatedBriefingEn")
    else if code == "pu" then Some("generatedBriefingPu")
    else if code == "hi" then Some("generatedBriefingHi")
    else None
  }

  /** The Firestore field holding the text-to-speech audio URL. */
  function AudioField(code: string): Option<string> {
    if code == "en" then Some("audioUrlEn")
    else if code == "pu" then Some("audioUrlPu")
    else if code == "hi" then Some("audioUrlHi")
    else None
  }

  /** The property key a lookup uses: an unknown code finds no entry in the
      field table, and JavaScript turns the `undefined` key into the string
      "undefined". */
  function KeyOf(field: Option<string>): string {
    field.GetOr("undefined")
  }

  /** The three languages name six different fields, none of them the key
      an unknown code looks up. */
  lemma FieldsDistinct(a: string, b: string)
    requires IsLanguageCode(a) && IsLanguageCode(b)
    ensures LangField(a).Some? && AudioField(a).Some?
    ensures a != b ==> LangField(a) != LangField(b) && AudioField(a) != AudioField(b)
    ensures LangField(a) != AudioField(b)
    ensures KeyOf(LangField(a)) != "undefined" && KeyOf(AudioField(a)) != "undefined"
  {
  }

  /** The placeholder texts shown until generated text exists. Their wording
      is immaterial here; only that they are three distinct strings. */
  const PlaceholderEn: string := "<placeholder briefing: English>"
  const PlaceholderPu: string := "<placeholder briefing: Punjabi>"
  const PlaceholderHi: string := "<placeholder briefing: Hindi>"

  /** `PLACEHOLDER_BRIEFINGS[lang] ?? PLACEHOLDER_BRIEFINGS.en`. */
  function Placeholder(code: string): string {
    if code == "pu" then PlaceholderPu
    else if code == "hi" then PlaceholderHi
    else PlaceholderEn
  }

  predicate IsPlaceholder(text: string) {
    text == PlaceholderEn || text == PlaceholderPu || text == PlaceholderHi
  }

  /** A published briefing document: its id, its string-valued fields, and
      its `version` field, which may be absent. */
  datatype BriefingDoc = BriefingDoc(id: string, fields: map<string, string>, version: Option<int>)

  /** `br?.[LANG_FIELD[lang]]`: the stored text for a language, if any. */
  function StoredText(br: Option<BriefingDoc>, code: string): Option<string> {
    var key := KeyOf(LangField(code));
    if br.Some? && key in br.value.fields then Some(br.value.fields[key]) else None
  }

  /** The text shown for a language: the stored generated text when it is
      present and not blank, otherwise the language's placeholder. */
  function GetBriefingText(br: Option<BriefingDoc>, lang: Option<string>): (r: string)
    // no language: the English placeholder
    ensures !Truthy(lang) ==> r == PlaceholderEn
    // otherwise either a placeholder, or the stored field, verbatim and not blank
    ensures Truthy(lang) ==>
      || r == Placeholder(lang.value)
      || (br.Some? && KeyOf(LangField(lang.value)) in br.value.fields
          && r == br.value.fields[KeyOf(LangField(lang.value))] && !IsBlank(r))
  {
    if !Truthy(lang) then PlaceholderEn
    else
      var stored := StoredText(br, lang.value);
      if stored.Some? && stored.value != "" && |Trim(stored.value)| > 0 then stored.value
      else Placeholder(lang.value)
  }

  /** Whether the page shows the "Preview" notice: no language, or no
      non-blank stored text for it. */
  function IsPlaceholderText(br: Option<BriefingDoc>, lang: Option<string>): (r: bool)
    ensures r <==> !Truthy(lang) || StoredText(br, lang.value).None? || IsBlank(StoredText(br, lang.value).value)
  {
    if !Truthy(lang) then true
    else
      var stored := StoredText(br, lang.value);
      stored.None? || stored.value == "" || |Trim(stored.value)| == 0
  }

  /** The two helpers agree: the notice shows exactly when the text shown is
      the fallback placeholder, and when it does not show the text is the
      stored field, unchanged. */
  lemma PlaceholderAgreement(br: Option<BriefingDoc>, lang: Option<string>)
    ensures IsPlaceholderText(br, lang) ==>
      GetBriefingText(br, lang) == (if Truthy(lang) then Placeholder(lang.value) else PlaceholderEn)
    ensures !IsPlaceholderText(br, lang) ==>
      Truthy(lang) && GetBriefingText(br, lang) == StoredText(br, lang.value).value
  {
  }

  /** Every fallback is one of the three placeholder texts, and an unknown
      code whose lookup key is absent falls back to English. */
  lemma FallbackIsPlaceholder(br: Option<BriefingDoc>, lang: Option<string>)
    requires IsPlaceholderText(br, lang)
    ensures IsPlaceholder(GetBriefingText(br, lang))
    ensures Truthy(lang) && !IsLanguageCode(lang.value) ==> GetBriefingText(br, lang) == PlaceholderEn
  {
  }

  /** For a known language, a stored text that is not blank is shown as
      is; a missing or blank one gives that language's own placeholder. */
  lemma KnownLanguageText(doc: BriefingDoc, code: string)
    requires IsLanguageCode(code)
    ensures var key := LangField(code).value;
      GetBriefingText(Some(doc), Some(code)) ==
        if key in doc.fields && !IsBlank(doc.fields[key]) then doc.fields[key] else Placeholder(code)
    ensures Placeholder(code) == (if code == "en" then PlaceholderEn else if code == "pu" then PlaceholderPu else PlaceholderHi)
  {
    var key := LangField(code).value;
    StoredTextShown(Some(doc), code);
    assert StoredText(Some(doc), code) == if key in doc.fields then Some(doc.fields[key]) else None;
  }

  /** A non-empty code shows its stored text when that is not blank, and its
      placeholder otherwise. */
  lemma StoredTextShown(br: Option<BriefingDoc>, code: string)
    requires code != ""
    ensures var stored := StoredText(br, code);
      GetBriefingText(br, Some(code)) == if stored.Some? && !IsBlank(stored.value) then stored.value else Placeholder(code)
  {
    var stored := StoredText(br, code);
    if stored.Some? {
      assert |Trim(stored.value)| > 0 <==> !IsBlank(stored.value);
    }
  }

  /** The key `briefing[AUDIO_FIELD[selectedLanguage]]` reads: the audio field
      of a known code, and "undefined" for an unknown code or no language
      (`AUDIO_FIELD[null]` is undefined as well). */
  function AudioKey(lang: Option<string>): string {
    KeyOf(if lang.Some? then AudioField(lang.value) else None)
  }

  /** `briefing[AUDIO_FIELD[selectedLanguage]] ?? null`: the stored value at
      the audio key, or none. */
  function AudioUrl(doc: BriefingDoc, lang: Option<string>): (r: Option<string>)
    ensures r.Some? ==> AudioKey(lang) in doc.fields && r.value == doc.fields[AudioKey(lang)]
    // a known language finds its own audio field
    ensures lang.Some? && IsLanguageCode(lang.value) ==>
      var key := AudioField(lang.value).value;
      (r.Some? <==> key in doc.fields) && (r.Some? ==> r.value == doc.fields[key])
    // anything else reads the "undefined" property
    ensures !(lang.Some? && IsLanguageCode(lang.value)) ==>
      r == (if "undefined" in doc.fields then Some(doc.fields["undefined"]) else None)
  {
    var key := AudioKey(lang);
    if key in doc.fields then Some(doc.fields[key]) else None
  }

  /** Storing a language's audio URL makes that language's player get it and
      changes neither the text shown in any language nor the audio of the
      other two. */
  lemma AudioUpdateIsolated(doc: BriefingDoc, code: string, url: string, lang: Option<string>, other: string)
    requires IsLanguageCode(code) && IsLanguageCode(other) && other != code
    ensures var updated := doc.(fields := doc.fields[AudioField(code).value := url]);
      && AudioUrl(updated, Some(code)) == Some(url)
      && AudioUrl(updated, Some(other)) == AudioUrl(doc, Some(other))
      && GetBriefingText(Some(updated), lang) == GetBriefingText(Some(doc), lang)
      && IsPlaceholderText(Some(updated), lang) == IsPlaceholderText(Some(doc), lang)
  {
    var updated := doc.(fields := doc.fields[AudioField(code).value := url]);
    assert AudioUrl(updated, Some(code)) == Some(url) by {
      StoredAudio(doc, code, url, code);
    }
    assert AudioUrl(updated, Some(other)) == AudioUrl(doc, Some(other)) by {
      StoredAudio(doc, code, url, other);
    }
    TextIgnoresAudio(doc, code, url, lang);
  }

  /** After storing `url` as `code`'s audio, a known language's player finds
      `url` when it is that language and what it found before otherwise. */
  lemma StoredAudio(doc: BriefingDoc, code: string, url: string, l: string)
    requires IsLanguageCode(code) && IsLanguageCode(l)
    ensures var updated := doc.(fields := doc.fields[AudioField(code).value := url]);
      AudioUrl(updated, Some(l)) == if l == code then Some(url) else AudioUrl(doc, Some(l))
  {
    FieldsDistinct(l, code);
    var key := AudioField(code).value;
    assert AudioKey(Some(code)) == key;
    assert l != code ==> AudioKey(Some(l)) != key;
  }

  lemma TextIgnoresAudio(doc: BriefingDoc, code: string, url: string, lang: Option<string>)
    requires IsLanguageCode(code)
    ensures var updated := doc.(fields := doc.fields[AudioField(code).value := url]);
      && GetBriefingText(Some(updated), lang) == GetBriefingText(Some(doc), lang)
      && IsPlaceholderText(Some(updated), lang) == IsPlaceholderText(Some(doc), lang)
  {
    var updated := doc.(fields := doc.fields[AudioField(code).value := url]);
    if Truthy(lang) {
      FieldsDistinct(code, code);
      if IsLanguageCode(lang.value) {
        FieldsDistinct(lang.value, code);
      }
      assert StoredText(Some(updated), lang.value) == StoredText(Some(doc), lang.value);
    }
  }

  /** The props of the acknowledgement form: the briefing's id, its version
      (1 when the document has none), the page's project, and the language. */
  function FormProps(doc: BriefingDoc, projectId: string, lang: Option<string>): (p: AcknowledgementForm.Props)
    ensures p.briefingVersion == doc.version.GetOr(1)
    ensures p.briefingId == doc.id && p.projectId == projectId && p.selectedLanguage == lang
  {
    AcknowledgementForm.Props(doc.id, doc.version.GetOr(1), projectId, lang)
  }

  // -----------------------------------------------------------------------
  // The language gate
  // -----------------------------------------------------------------------

  datatype Gate = Gate(selectedLanguage: Option<string>, started: bool)

  const InitialGate: Gate := Gate(None, false)

  /** A tap on the selector. The selector is rendered only before the start,
      so taps after it change nothing. */
  function GateStep(g: Gate, tap: Tap): (r: Gate)
    ensures g.started ==> r == g
    ensures !g.started && r.started ==> Truthy(r.selectedLanguage)
    ensures !g.started && r.selectedLanguage.Some? ==> r.selectedLanguage == g.selectedLanguage || IsLanguageCode(r.selectedLanguage.value)
    // a card tap selects that card; an enabled Start starts the briefing
    ensures !g.started && tap.TapCard? && tap.card < |LanguageCodes| ==>
      r == g.(selectedLanguage := Some(LanguageCodes[tap.card]))
    ensures !g.started ==> (r.started <==> tap == TapStart && Truthy(g.selectedLanguage))
  {
    if g.started then g
    else
      match HandleTap(g.selectedLanguage, tap)
      case OnSelect(code) => g.(selectedLanguage := Some(code))
      case OnStart => g.(started := true)
      case NoCallback => g
  }

  /** What the gate keeps: the selection is always one of the three codes,
      and the briefing has started only with a language chosen. */
  predicate GateInv(g: Gate) {
    && (g.selectedLanguage.Some? ==> IsLanguageCode(g.selectedLanguage.value))
    && (g.started ==> g.selectedLanguage.Some?)
  }

  /** The callbacks the selector fires for a tap: none once the briefing
      has started, since the selector is no longer rendered. */
  function Fired(g: Gate, tap: Tap): seq<Callback> {
    var c := HandleTap(g.selectedLanguage, tap);
    if g.started || c == NoCallback then [] else [c]
  }

  function GateTransition(): (Gate, Tap) -> (Gate, seq<Callback>) {
    (g: Gate, tap: Tap) => (GateStep(g, tap), Fired(g, tap))
  }

  /** The gate after a sequence of taps. */
  function RunGate(g: Gate, taps: seq<Tap>): Gate {
    Machine.Run(GateTransition(), g, taps).0
  }

  lemma RunGateStep(g: Gate, taps: seq<Tap>)
    requires taps != []
    ensures RunGate(g, taps) == RunGate(GateStep(g, taps[0]), taps[1..])
  {
    assert GateTransition()(g, taps[0]).0 == GateStep(g, taps[0]);
  }

  /** Tapping a card and then Start starts the briefing in that card's
      language. */
  lemma PickThenStart(i: nat)
    requires i < |LanguageCodes|
    ensures RunGate(InitialGate, [TapCard(i), TapStart]) == Gate(Some(LanguageCodes[i]), true)
  {
    var picked := Gate(Some(LanguageCodes[i]), false);
    assert GateStep(InitialGate, TapCard(i)) == picked;
    assert GateStep(picked, TapStart) == Gate(Some(LanguageCodes[i]), true);
    RunGateStep(InitialGate, [TapCard(i), TapStart]);
    assert [TapCard(i), TapStart][1..] == [TapStart];
    RunGateStep(picked, [TapStart]);
    assert [TapStart][1..] == [];
  }

  lemma GateStepKeepsInv(g: Gate, tap: Tap)
    requires GateInv(g)
    ensures GateInv(GateStep(g, tap))
  {
  }

  /** From the initial gate, every reachable gate that has started has a
      language among en, pu and hi. */
  lemma {:induction false} StartedImpliesLanguage(g: Gate, taps: seq<Tap>)
    requires GateInv(g)
    ensures GateInv(RunGate(g, taps))
    ensures RunGate(g, taps).started ==>
      RunGate(g, taps).selectedLanguage.Some? && IsLanguageCode(RunGate(g, taps).selectedLanguage.value)
    decreases |taps|
  {
    if taps != [] {
      RunGateStep(g, taps);
      GateStepKeepsInv(g, taps[0]);
      StartedImpliesLanguage(GateStep(g, taps[0]), taps[1..]);
    }
  }

  // -----------------------------------------------------------------------
  // What the page shows
  // -----------------------------------------------------------------------

  /** The page's main area, from the fetch state and the gate. */
  datatype Screen = Loading | LoadFailed(message: string) | NoBriefing | Selector | Content

  function Render(loading: bool, error: Option<string>, briefing: Option<BriefingDoc>, g: Gate): (v: Screen)
    ensures v == Loading <==> loading
    ensures v.LoadFailed? <==> !loading && Truthy(error)
    ensures v.LoadFailed? ==> v.message == error.value
    ensures v == NoBriefing <==> !loading && !Truthy(error) && briefing.None?
    ensures v == Selector ==> !g.started
    ensures v == Content ==> g.started && briefing.Some?
    ensures !loading && !Truthy(error) && briefing.Some? ==> (v == Selector <==> !g.started) && (v == Content <==> g.started)
  {
    if loading then Loading
    else if Truthy(error) then LoadFailed(error.value)
    else if briefing.None? then NoBriefing
    else if !g.started then Selector
    else Content
  }

  /** Once the content shows, the form it embeds is given one of the three
      language codes, so every acknowledgement it submits carries one. */
  lemma ContentSubmitsKnownLanguage(
    doc: BriefingDoc, projectId: string, taps: seq<Tap>,
    s: AcknowledgementForm.AckState)
    requires Render(false, None, Some(doc), RunGate(InitialGate, taps)) == Content
    ensures var start := AcknowledgementForm.BeginSubmit(s, FormProps(doc, projectId, RunGate(InitialGate, taps).selectedLanguage));
      start.call.Some? ==> start.call.value.language.Some? && IsLanguageCode(start.call.value.language.value)
  {
    StartedImpliesLanguage(InitialGate, taps);
  }
}

=== FILE: language_selector.dfy ===
/** The language picker shown before a briefing starts: three cards
    (English, Punjabi, Hindi), the selected-card highlight, and the Start
    button that is disabled until a language is picked. */
module LanguageSelector {

  import opened Optional

  /** The card codes, in display order. */
  const LanguageCodes: seq<string> := ["en", "pu", "hi"]

  predicate IsLanguageCode(code: string) {
    code in LanguageCodes
  }

  /** A card is highlighted when its code is the selected language. */
  predicate IsCardSelected(selected: Option<string>, card: nat)
    requires card < |LanguageCodes|
  {
    selected == Some(LanguageCodes[card])
  }

  /** Whether the Start button is disabled, and whether the "Select a
      language above to continue" hint shows: both exactly when no language
      is selected. */
  predicate StartDisabled(selected: Option<string>) {
    !Truthy(selected)
  }

  predicate HintShown(selected: Option<string>) {
    !Truthy(selected)
  }

  /** The hint shows exactly when the Start button is disabled, which is
      exactly when the selection is `null` or empty. */
  lemma HintMatchesStartButton(selected: Option<string>)
    ensures HintShown(selected) <==> StartDisabled(selected)
    ensures HintShown(selected) <==> selected == None || selected == Some("")
  {
  }

  /** A tap on a card, by position, or on the Start button. */
  datatype Tap = TapCard(card: nat) | TapStart

  /** The callback the selector invokes for a tap. */
  datatype Callback = OnSelect(code: string) | OnStart | NoCallback

  /** A card reports its own code; Start reports only when enabled. */
  function HandleTap(selected: Option<string>, tap: Tap): (r: Callback)
    ensures r.OnSelect? ==> IsLanguageCode(r.code)
    ensures tap.TapCard? && tap.card < |LanguageCodes| ==> r == OnSelect(LanguageCodes[tap.card])
    ensures r == OnStart <==> tap == TapStart && Truthy(selected)
    // a tap off the cards and a tap on the disabled Start fire nothing
    ensures r == NoCallback <==>
      (tap.TapCard? && tap.card >= |LanguageCodes|) || (tap == TapStart && !Truthy(selected))
  {
    match tap
    case TapCard(card) =>
      if card < |LanguageCodes| then OnSelect(LanguageCodes[card]) else NoCallback
    case TapStart =>
      if StartDisabled(selected) then NoCallback else OnStart
  }

  /** The three codes are distinct, so at most one card is highlighted. */
  lemma AtMostOneCardSelected(selected: Option<string>, i: nat, j: nat)
    requires i < |LanguageCodes| && j < |LanguageCodes|
    requires IsCardSelected(selected, i) && IsCardSelected(selected, j)
    ensures i == j
  {
  }

  /** Selecting a card highlights exactly that card. */
  lemma SelectHighlightsTappedCard(selected: Option<string>, i: nat, j: nat)
    requires i < |LanguageCodes| && j < |LanguageCodes|
    ensures IsCardSelected(Some(HandleTap(selected, TapCard(i)).code), j) <==> i == j
  {
  }
}

=== FILE: machine.dfy ===
// Event-driven components, abstractly: a step function takes the current
// state and one event to the next state and the outputs (calls, messages)
// the step emits. Running a sequence of events folds the step over it and
// collects the outputs in order.

module Machine {

  /** The state after feeding `events` to `step` from `s`, and every output
      emitted on the way, in order. */
  function Run<S, E, O>(step: (S, E) -> (S, seq<O>), s: S, events: seq<E>): (S, seq<O>)
    decreases |events|
  {
    if events == [] then (s, [])
    else
      var first := step(s, events[0]);
      var rest := Run(step, first.0, events[1..]);
      (rest.0, first.1 + rest.1)
  }

  /** Running two event sequences one after the other is running their
      concatenation. */
  lemma {:induction false} RunAppend<S, E, O>(step: (S, E) -> (S, seq<O>), s: S, xs: seq<E>, ys: seq<E>)
    ensures var first := Run(step, s, xs);
      var second := Run(step, first.0, ys);
      Run(step, s, xs + ys) == (second.0, first.1 + second.1)
    decreases |xs|
  {
    if xs == [] {
      assert xs + ys == ys;
      assert [] + Run(step, s, ys).1 == Run(step, s, ys).1;
    } else {
      var head := step(s, xs[0]);
      assert (xs + ys)[0] == xs[0];
      assert (xs + ys)[1..] == xs[1..] + ys;
      RunAppend(step, head.0, xs[1..], ys);
      var tail := Run(step, head.0, xs[1..]);
      var second := Run(step, tail.0, ys);
      assert head.1 + (tail.1 + second.1) == (head.1 + tail.1) + second.1;
    }
  }

  /** A single event, as a run, is one step. */
  lemma RunOne<S, E, O>(step: (S, E) -> (S, seq<O>), s: S, e: E)
    ensures Run(step, s, [e]) == step(s, e)
  {
    assert [e][1..] == [];
    assert step(s, e).1 + [] == step(s, e).1;
  }

  /** A state that every event leaves alone, without output, is final. */
  lemma {:induction false} RunFixed<S, E, O>(step: (S, E) -> (S, seq<O>), s: S, events: seq<E>)
    requires forall e :: step(s, e) == (s, [])
    ensures Run(step, s, events) == (s, [])
    decreases |events|
  {
    if events != [] {
      RunFixed(step, s, events[1..]);
      assert [] + Run(step, s, events[1..]).1 == [];
    }
  }

  /** When every step emits only outputs satisfying `ok`, so does every run. */
  lemma {:induction false} RunOutputs<S, E, O>(step: (S, E) -> (S, seq<O>), ok: O -> bool, s: S, events: seq<E>)
    requires forall x, e, o :: o in step(x, e).1 ==> ok(o)
    ensures forall o :: o in Run(step, s, events).1 ==> ok(o)
    decreases |events|
  {
    if events != [] {
      RunOutputs(step, ok, step(s, events[0]).0, events[1..]);
    }
  }
}

=== FILE: optional.dfy ===
/** A value that may be absent: JavaScript's `null` / `undefined` for the
    fields and arguments the client code treats as optional. */
module Optional {

  datatype Option<+T> = None | Some(value: T) {

    /** The value, or `default` when absent: JavaScript's `x ?? default`. */
    function GetOr(default: T): T {
      match this
      case Some(v) => v
      case None => default
    }
  }

  /** JavaScript truthiness of a string that may be `null`: `null` and `""`
      are falsy, every other string is truthy. */
  predicate Truthy(s: Option<string>) {
    s.Some? && s.value != ""
  }
}

=== FILE: text.dfy ===
/** String helpers shared by the client components: JavaScript's
    `String.prototype.trim`, the decimal rendering `String(n)` of a
    non-negative integer, `padStart`, and the integer part of `Number(s)`. */
module Text {

  import opened Optional

  /** The characters `trim` removes: the WhiteSpace and LineTerminator
      productions of ECMA-262 (sections 12.2 and 12.3), including every
      character of Unicode category Zs. */
  predicate IsWhitespace(c: char) {
    || c == '\t' || c == '\n' || c == '\U{000B}' || c == '\U{000C}' || c == '\r'
    || c == ' ' || c == '\U{00A0}' || c == '\U{1680}'
    || ('\U{2000}' <= c <= '\U{200A}')
    || c == '\U{2028}' || c == '\U{2029}' || c == '\U{202F}' || c == '\U{205F}'
    || c == '\U{3000}' || c == '\U{FEFF}'
  }

  /** Every character is whitespace; the empty string is blank. */
  predicate IsBlank(s: string) {
    forall i :: 0 <= i < |s| ==> IsWhitespace(s[i])
  }

  /** Neither end of `s` is whitespace: what `trim` leaves behind. */
  predicate IsTrimmed(s: string) {
    s == [] || (!IsWhitespace(s[0]) && !IsWhitespace(s[|s| - 1]))
  }

  /** `s` without its leading whitespace. */
  function TrimStart(s: string): (r: string)
    ensures |r| <= |s| && r == s[|s| - |r|..]
    ensures IsBlank(s[..|s| - |r|])
    ensures r == [] || !IsWhitespace(r[0])
  {
    if |s| > 0 && IsWhitespace(s[0]) then
      var r := TrimStart(s[1..]);
      var k := |s| - |r|;
      assert s[1..][k - 1..] == s[k..];
      assert forall i :: 1 <= i < k ==> s[..k][i] == s[1..][..k - 1][i - 1];
      r
    else s
  }

  /** `s` without its trailing whitespace. */
  function TrimEnd(s: string): (r: string)
    ensures |r| <= |s| && r == s[..|r|]
    ensures IsBlank(s[|r|..])
    ensures r == [] || !IsWhitespace(r[|r| - 1])
  {
    if |s| > 0 && IsWhitespace(s[|s| - 1]) then
      var r := TrimEnd(s[..|s| - 1]);
      assert s[|r|..] == s[..|s| - 1][|r|..] + [s[|s| - 1]];
      r
    else s
  }

  /** JavaScript's `s.trim()`: the middle of `s` between its leading and
      trailing whitespace. */
  function Trim(s: string): (r: string)
    ensures IsTrimmed(r)
    ensures |r| <= |s|
    ensures r == [] <==> IsBlank(s)
  {
    TrimBlankIff(s);
    TrimEndStartTrimmed(s);
    TrimEnd(TrimStart(s))
  }

  /** `r` sits in `s` at offset `k` with only whitespace before and after it. */
  predicate IsMiddle(s: string, k: nat, r: string) {
    && k + |r| <= |s| && r == s[k..k + |r|]
    && IsBlank(s[..k]) && IsBlank(s[k + |r|..])
  }

  /** `Trim(s)` is the slice of `s` that starts right after its leading
      whitespace and is followed only by whitespace: together with
      `IsTrimmed` this pins the result down. */
  lemma TrimIsMiddle(s: string)
    ensures IsMiddle(s, |s| - |TrimStart(s)|, Trim(s))
  {
    var t := TrimStart(s);
    var r := TrimEnd(t);
    assert Trim(s) == r;
    MiddleOf(s, t, r);
  }

  /** A blank-prefixed suffix of `s`, cut down to a blank-suffixed prefix of
      itself, is a slice of `s` with blanks on both sides. */
  lemma MiddleOf(s: string, t: string, r: string)
    requires |t| <= |s| && t == s[|s| - |t|..] && IsBlank(s[..|s| - |t|])
    requires |r| <= |t| && r == t[..|r|] && IsBlank(t[|r|..])
    ensures IsMiddle(s, |s| - |t|, r)
  {
    var k := |s| - |t|;
    assert t[|r|..] == s[k + |r|..];
  }

  lemma TrimEndStartTrimmed(s: string)
    ensures IsTrimmed(TrimEnd(TrimStart(s)))
  {
    var t := TrimStart(s);
    var r := TrimEnd(t);
    if r != [] {
      assert r[0] == t[0];
    }
  }

  lemma TrimBlankIff(s: string)
    ensures TrimEnd(TrimStart(s)) == [] <==> IsBlank(s)
  {
    var t := TrimStart(s);
    var k := |s| - |t|;
    assert t == s[k..];
    if TrimEnd(t) == [] {
      // TrimStart leaves nothing or a non-whitespace first character
      assert IsBlank(t[0..]);
      assert t == [];
      assert s[..k] == s;
    } else {
      assert TrimEnd(t)[0] == t[0] == s[k];
    }
  }

  /** Leading whitespace before a string that does not start with
      whitespace is exactly what `TrimStart` removes. */
  lemma {:induction false} TrimStartBlankPrefix(w: string, u: string)
    requires IsBlank(w)
    requires u == [] || !IsWhitespace(u[0])
    ensures TrimStart(w + u) == u
    decreases |w|
  {
    if w == [] {
      assert w + u == u;
    } else {
      assert (w + u)[0] == w[0];
      assert (w + u)[1..] == w[1..] + u;
      TrimStartBlankPrefix(w[1..], u);
    }
  }

  /** Trailing whitespace after a string that does not end with whitespace
      is exactly what `TrimEnd` removes. */
  lemma {:induction false} TrimEndBlankSuffix(u: string, w: string)
    requires IsBlank(w)
    requires u == [] || !IsWhitespace(u[|u| - 1])
    ensures TrimEnd(u + w) == u
    decreases |w|
  {
    if w == [] {
      assert u + w == u;
    } else {
      var v := u + w;
      assert v[|v| - 1] == w[|w| - 1];
      assert v[..|v| - 1] == u + w[..|w| - 1];
      TrimEndBlankSuffix(u, w[..|w| - 1]);
    }
  }

  /** Padding a trimmed string with whitespace on both sides and trimming
      gives the string back. */
  lemma TrimPadded(w1: string, t: string, w2: string)
    requires IsBlank(w1) && IsBlank(w2) && IsTrimmed(t)
    ensures Trim(w1 + t + w2) == t
  {
    var s := w1 + t + w2;
    if t == [] {
      assert IsBlank(s) by {
        assert s == w1 + w2;
        forall i | 0 <= i < |s| ensures IsWhitespace(s[i]) {
          if i < |w1| { assert s[i] == w1[i]; } else { assert s[i] == w2[i - |w1|]; }
        }
      }
    } else {
      assert s == w1 + (t + w2);
      assert TrimStart(s) == t + w2 by {
        assert (t + w2)[0] == t[0];
        TrimStartBlankPrefix(w1, t + w2);
      }
      TrimEndBlankSuffix(t, w2);
    }
  }

  /** Trimming twice is trimming once. */
  lemma TrimIdempotent(s: string)
    ensures Trim(Trim(s)) == Trim(s)
  {
    TrimOfTrimmed(Trim(s));
  }

  /** A string whose ends are not whitespace is its own trim. */
  lemma TrimOfTrimmed(s: string)
    requires IsTrimmed(s)
    ensures Trim(s) == s
  {
    assert TrimStart(s) == s;
  }

  /** `TrimOfTrimmed` as an implication, for use inside expressions. */
  lemma TrimOfTrimmedIf(s: string)
    ensures IsTrimmed(s) ==> Trim(s) == s
  {
    if IsTrimmed(s) { TrimOfTrimmed(s); }
  }

  // ---------------------------------------------------------------------
  // Decimal digits
  // ---------------------------------------------------------------------

  predicate IsDigit(c: char) {
    '0' <= c <= '9'
  }

  predicate AllDigits(s: string) {
    forall i :: 0 <= i < |s| ==> IsDigit(s[i])
  }

  function DigitChar(d: nat): (c: char)
    requires d < 10
    ensures IsDigit(c)
  {
    ('0' as int + d) as char
  }

  function DigitValue(c: char): (d: nat)
    requires IsDigit(c)
    ensures d < 10
  {
    c as int - '0' as int
  }

  /** The number a string of decimal digits denotes (0 for the empty string). */
  function DecimalValue(s: string): nat
    requires AllDigits(s)
  {
    if s == [] then 0 else 10 * DecimalValue(s[..|s| - 1]) + DigitValue(s[|s| - 1])
  }

  /** JavaScript's `String(n)` for a non-negative integer: its decimal digits,
      most significant first, without leading zeros. */
  function NatToDecimal(n: nat): (r: string)
    ensures |r| >= 1 && AllDigits(r)
    ensures |r| > 1 ==> r[0] != '0'
    ensures n < 10 <==> |r| == 1
    ensures n < 100 ==> |r| <= 2
  {
    if n < 10 then [DigitChar(n)] else NatToDecimal(n / 10) + [DigitChar(n % 10)]
  }

  /** Reading back the digits `NatToDecimal` writes gives the number. */
  lemma {:induction false} DecimalRoundTrip(n: nat)
    ensures DecimalValue(NatToDecimal(n)) == n
  {
    if n >= 10 {
      var s := NatToDecimal(n);
      assert s[..|s| - 1] == NatToDecimal(n / 10);
      DecimalRoundTrip(n / 10);
    }
  }

  /** Leading digits never change the value of a digit string's suffix by
      more than a multiple of a power of ten; in particular leading zeros do
      not change it. */
  lemma {:induction false} LeadingZeros(z: string, s: string)
    requires AllDigits(s)
    requires forall i :: 0 <= i < |z| ==> z[i] == '0'
    ensures AllDigits(z + s) && DecimalValue(z + s) == DecimalValue(s)
  {
    if s == [] {
      assert z + s == z;
      AllZeros(z);
    } else {
      var t := z + s;
      assert t[..|t| - 1] == z + s[..|s| - 1];
      LeadingZeros(z, s[..|s| - 1]);
    }
  }

  lemma {:induction false} AllZeros(z: string)
    requires forall i :: 0 <= i < |z| ==> z[i] == '0'
    ensures AllDigits(z) && DecimalValue(z) == 0
  {
    if z != [] {
      AllZeros(z[..|z| - 1]);
    }
  }

  /** `n` copies of `c`. */
  function Repeat(c: char, n: nat): (r: string)
    ensures |r| == n
    ensures forall i :: 0 <= i < n ==> r[i] == c
  {
    if n == 0 then [] else [c] + Repeat(c, n - 1)
  }

  /** JavaScript's `s.padStart(width, c)` for a one-character pad. */
  function PadStart(s: string, width: nat, c: char): (r: string)
    ensures |s| >= width ==> r == s
    ensures |s| < width ==> |r| == width && r[width - |s|..] == s
    ensures forall i :: 0 <= i < |r| - |s| ==> r[i] == c
  {
    if |s| >= width then s else Repeat(c, width - |s|) + s
  }

  /** Zero-padding a digit string keeps it a digit string of the same value. */
  lemma ZeroPadValue(s: string, width: nat)
    requires AllDigits(s)
    ensures AllDigits(PadStart(s, width, '0'))
    ensures DecimalValue(PadStart(s, width, '0')) == DecimalValue(s)
    ensures |PadStart(s, width, '0')| >= width
  {
    if |s| < width {
      LeadingZeros(Repeat('0', width - |s|), s);
    }
  }

  // ---------------------------------------------------------------------
  // Integer parsing
  // ---------------------------------------------------------------------

  /** The integer `Number(s)` yields for an optionally signed decimal
      integer literal surrounded by whitespace; the empty or blank string is
      0. Every other input (fractions, exponents, hexadecimal, `Infinity`,
      garbage) is `None`. */
  function ParseInteger(s: string): (r: Option<int>)
    ensures IsBlank(s) ==> r == Some(0)
  {
    ParseTrimmed(Trim(s))
  }

  /** `ParseInteger` once the surrounding whitespace is gone. */
  function ParseTrimmed(t: string): Option<int> {
    if t == [] then Some(0)
    else if t[0] == '-' || t[0] == '+' then
      var d := t[1..];
      if d != [] && AllDigits(d) then
        var v: int := DecimalValue(d);
        Some(if t[0] == '-' then -v else v)
      else None
    else if AllDigits(t) then Some(DecimalValue(t))
    else None
  }

  /** `String(n)` for any integer: a minus sign before the digits of `-n`
      when `n` is negative. */
  function IntToDecimal(n: int): (r: string)
    ensures IsTrimmed(r) && r != []
  {
    if n < 0 then "-" + NatToDecimal(-n) else NatToDecimal(n)
  }

  /** `ParseInteger` reads back what `IntToDecimal` writes. */
  lemma ParseRendered(n: int)
    ensures ParseInteger(IntToDecimal(n)) == Some(n)
  {
    if n < 0 {
      ParseRenderedNegative(n);
    } else {
      ParseRenderedNatural(n);
    }
  }

  lemma ParseRenderedNegative(n: int)
    requires n < 0
    ensures ParseInteger(IntToDecimal(n)) == Some(n)
  {
    DecimalRoundTrip(-n);
    ParseNegated(IntToDecimal(n), NatToDecimal(-n), -n);
  }

  /** A minus sign before the digits of `m`, with nothing around them, reads
      as `-m`. */
  lemma ParseNegated(s: string, d: string, m: nat)
    requires d != [] && AllDigits(d) && DecimalValue(d) == m
    requires s == "-" + d && IsTrimmed(s)
    ensures ParseInteger(s) == Some(0 - m)
  {
    ParseMinusDigits(d);
    ParseOfTrimmed(s);
  }

  /** A minus sign before a digit string reads as the negated value. */
  lemma ParseMinusDigits(d: string)
    requires d != [] && AllDigits(d)
    ensures ParseTrimmed("-" + d) == Some(0 - DecimalValue(d))
  {
    assert ("-" + d)[1..] == d;
  }

  lemma ParseRenderedNatural(n: nat)
    ensures ParseInteger(IntToDecimal(n)) == Some(n)
  {
    var s := IntToDecimal(n);
    assert ParseTrimmed(s) == Some(n) by {
      DecimalRoundTrip(n);
    }
    ParseOfTrimmed(s);
  }

  /** With no whitespace around it, a string is parsed as it stands. */
  lemma ParseOfTrimmed(s: string)
    requires IsTrimmed(s)
    ensures ParseInteger(s) == ParseTrimmed(s)
  {
    TrimOfTrimmed(s);
  }

  /** `Number` reads whitespace, an optional sign and a digit string, then
      whitespace again, as the digits' value, negated after a minus sign. */
  lemma ParseSpelled(x: string, w1: string, sign: string, d: string, w2: string)
    requires IsBlank(w1) && IsBlank(w2)
    requires sign == "" || sign == "-" || sign == "+"
    requires d != [] && AllDigits(d)
    requires x == w1 + sign + d + w2
    ensures ParseInteger(x) == Some(if sign == "-" then 0 - DecimalValue(d) else DecimalValue(d))
  {
    var t := sign + d;
    assert x == w1 + t + w2;
    SignedIsTrimmed(sign, d);
    ParseOfPadded(w1, t, w2);
    ParseSigned(sign, d);
  }

  lemma SignedIsTrimmed(sign: string, d: string)
    requires sign == "" || sign == "-" || sign == "+"
    requires d != [] && AllDigits(d)
    ensures IsTrimmed(sign + d)
  {
    var t := sign + d;
    assert t[|t| - 1] == d[|d| - 1];
    assert IsDigit(d[|d| - 1]);
    if sign == "" {
      assert t[0] == d[0] && IsDigit(d[0]);
    } else {
      assert t[0] == sign[0];
    }
  }

  /** An optional sign before a digit string reads as the signed value. */
  lemma ParseSigned(sign: string, d: string)
    requires sign == "" || sign == "-" || sign == "+"
    requires d != [] && AllDigits(d)
    ensures ParseTrimmed(sign + d) == Some(if sign == "-" then 0 - DecimalValue(d) else DecimalValue(d))
  {
    var t := sign + d;
    if sign == "" {
      assert t == d;
      assert IsDigit(d[0]);
    } else {
      assert t[0] == sign[0];
      assert t[1..] == d;
    }
  }

  /** Whitespace around a string without whitespace at its ends does not
      change how it parses. */
  lemma ParseOfPadded(w1: string, t: string, w2: string)
    requires IsBlank(w1) && IsBlank(w2) && IsTrimmed(t)
    ensures ParseInteger(w1 + t + w2) == ParseTrimmed(t)
  {
    TrimPadded(w1, t, w2);
  }

  /** A bare digit string parses as its value. */
  lemma ParseDigitsIf(s: string)
    ensures s != [] && AllDigits(s) ==> ParseInteger(s) == Some(DecimalValue(s))
  {
    if s != [] && AllDigits(s) {
      assert IsDigit(s[0]) && IsDigit(s[|s| - 1]);
      ParseOfTrimmed(s);
    }
  }
}

=== FILE: voice_recorder.dfy ===
/** The coordinator's voice recorder: choosing a recording format from a
    fixed priority list, the duration label, and the start / stop / clear
    handlers with the recorder's `onstop` callback. The browser (microphone
    access, `MediaRecorder.isTypeSupported`, the format a recorder reports)
    and the clock are parameters; blobs and preview URLs are not modelled. */
module VoiceRecorder {

  import opened Optional
  import opened Text

  /** Recording formats, most preferred first. */
  const MimeCandidates: seq<string> := ["audio/webm;codecs=opus", "audio/webm", "audio/mp4"]

  /** The blob type when the recorder reports no format. */
  const FallbackBlobType: string := "audio/webm"

  /** `pickSupportedMimeType`: "" without `MediaRecorder`, otherwise the
      first candidate the browser supports, or "" if it supports none. */
  method PickSupportedMimeType(hasMediaRecorder: bool, isTypeSupported: string -> bool) returns (r: string)
    ensures !hasMediaRecorder ==> r == ""
    ensures r == "" || r in MimeCandidates
    ensures r != "" ==> isTypeSupported(r)
    ensures forall i :: 0 <= i < |MimeCandidates| && MimeCandidates[i] == r ==>
      forall j :: 0 <= j < i ==> !isTypeSupported(MimeCandidates[j])
    ensures hasMediaRecorder && r == "" ==> forall i :: 0 <= i < |MimeCandidates| ==> !isTypeSupported(MimeCandidates[i])
    ensures r == FirstSupported(hasMediaRecorder, isTypeSupported)
  {
    if !hasMediaRecorder {
      return "";
    }
    var i := 0;
    while i < |MimeCandidates|
      invariant 0 <= i <= |MimeCandidates|
      invariant forall j :: 0 <= j < i ==> !isTypeSupported(MimeCandidates[j])
      invariant FirstSupported(true, isTypeSupported) == FirstFrom(MimeCandidates[i..], isTypeSupported)
    {
      if isTypeSupported(MimeCandidates[i]) {
        return MimeCandidates[i];
      }
      i := i + 1;
    }
    return "";
  }

  /** The first element of `cands` that `ok` accepts, or "". */
  function FirstFrom(cands: seq<string>, ok: string -> bool): string {
    if cands == [] then ""
    else if ok(cands[0]) then cands[0]
    else FirstFrom(cands[1..], ok)
  }

  /** The same choice as a function, for use by the handlers below. */
  function FirstSupported(hasMediaRecorder: bool, isTypeSupported: string -> bool): string {
    if hasMediaRecorder then FirstFrom(MimeCandidates, isTypeSupported) else ""
  }

  /** `recorder.mimeType || 'audio/webm'`: the recorder's format, or the
      fallback when it reports none. */
  function BlobType(recorderMime: string): (r: string)
    ensures r != ""
    ensures recorderMime != "" ==> r == recorderMime
    ensures recorderMime == "" ==> r == FallbackBlobType
  {
    if recorderMime != "" then recorderMime else FallbackBlobType
  }

  // -----------------------------------------------------------------------
  // Duration label
  // -----------------------------------------------------------------------

  /** `Math.max(0, Math.floor(ms / 1000))`. Dafny's `/` on a positive divisor
      rounds down, like `Math.floor`. */
  function TotalSeconds(ms: int): (r: nat)
    ensures ms >= 0 ==> 1000 * r <= ms < 1000 * (r + 1)
    ensures ms < 1000 ==> r == 0
  {
    var s := ms / 1000;
    if s < 0 then 0 else s
  }

  /** `formatDuration`: whole minutes, zero-padded to at least two digits,
      a colon, and the remaining seconds as exactly two digits. */
  function FormatDuration(ms: int): (r: string)
    ensures |r| >= 5 && r[|r| - 3] == ':'
    ensures AllDigits(r[..|r| - 3]) && AllDigits(r[|r| - 2..])
    // reading the label back gives the seconds, with a seconds part below 60
    ensures DecimalValue(r[|r| - 2..]) < 60
    ensures 60 * DecimalValue(r[..|r| - 3]) + DecimalValue(r[|r| - 2..]) == TotalSeconds(ms)
    // negative and sub-second durations read 00:00
    ensures ms < 1000 ==> r == "00:00"
    // the minutes are padded to two digits and no further
    ensures |r| == 5 || r[0] != '0'
  {
    var total := TotalSeconds(ms);
    var min := TwoDigitsAtLeast(total / 60);
    var sec := TwoDigitsAtLeast(total % 60);
    ClockDigits(min, sec);
    assert 60 * (total / 60) + total % 60 == total;
    Clock(min, sec)
  }

  /** `${min}:${sec}` for a two-character seconds part. */
  function Clock(min: string, sec: string): (r: string)
    requires |sec| == 2
    ensures |r| == |min| + 3 && r[|r| - 3] == ':'
    ensures r[..|r| - 3] == min && r[|r| - 2..] == sec
  {
    min + ":" + sec
  }

  /** The two digit runs of a clock label are the minutes and seconds. */
  lemma ClockDigits(min: string, sec: string)
    requires |min| >= 2 && AllDigits(min) && (|min| == 2 || min[0] != '0')
    requires |sec| == 2 && AllDigits(sec)
    ensures var r := Clock(min, sec);
      && |r| >= 5 && r[..|r| - 3] == min && r[|r| - 2..] == sec
      && (|r| == 5 || r[0] != '0')
      && (min == "00" && sec == "00" ==> r == "00:00")
  {
  }

  /** `String(n).padStart(2, '0')`: at least two digits, reading back as `n`. */
  function TwoDigitsAtLeast(n: nat): (r: string)
    ensures |r| >= 2 && AllDigits(r) && DecimalValue(r) == n
    ensures n < 100 ==> |r| == 2
    ensures n == 0 ==> r == "00"
    // one digit gets a single leading zero; more digits are left alone
    ensures n < 10 ==> r == ['0', DigitChar(n)]
    ensures n >= 10 ==> r == NatToDecimal(n)
    ensures |r| == 2 || r[0] != '0'
  {
    DecimalRoundTrip(n);
    ZeroPadValue(NatToDecimal(n), 2);
    PadStart(NatToDecimal(n), 2, '0')
  }

  // -----------------------------------------------------------------------
  // Recorder handlers
  // -----------------------------------------------------------------------

  /** `MediaRecorder.state`. */
  datatype MediaState = Inactive | Recording | Paused

  /** The live recorder: the format it was asked for ("" when it was
      created without one), the format it reports, and its state. */
  datatype Recorder = Recorder(requested: string, mimeType: string, state: MediaState)

  /** The value handed to `onChange` (its blob and preview URL left out). */
  datatype Take = Take(mimeType: string, durationMs: int)

  /** The component's state: the recorder reference, the `isRecording` and
      `durationMs` state, the error banner, and the start time. */
  datatype RecorderState = RecorderState(
    recorder: Option<Recorder>,
    isRecording: bool,
    durationMs: int,
    error: string,
    startedAt: int)

  /** The state the component mounts with: no recorder, not recording, no
      error, and the duration of the take the parent already holds (0 when
      it holds none). */
  function InitialState(previous: Option<Take>): (s: RecorderState)
    ensures s.recorder.None? && !s.isRecording && s.error == ""
    ensures previous.None? ==> s.durationMs == 0 && FormatDuration(s.durationMs) == "00:00"
    ensures previous.Some? ==> s.durationMs == previous.value.durationMs
  {
    RecorderState(None, false, if previous.Some? then previous.value.durationMs else 0, "", 0)
  }

  /** A call to `onChange`, if any: `Emit(None)` is `onChange(null)`. */
  datatype Emission = NoEmission | Emit(value: Option<Take>)

  datatype StepResult = StepResult(next: RecorderState, emitted: Emission)

  const UnsupportedMessage: string := "Voice recording is not supported in this browser."
  const DeniedMessage: string := "Microphone access was denied. Please allow access and try again."

  /** Where `startRecording` throws once the microphone is granted: nowhere,
      in the `MediaRecorder` constructor, or in `recorder.start()`. Every
      throw lands in the same `catch` as a denied microphone. */
  datatype RecorderFailure = NoFailure | ConstructorThrows | StartThrows

  /** What the browser provides for one press of Start: whether recording is
      supported at all, whether microphone access is granted, the format
      support check, the `mimeType` a recorder reports when created with a
      requested format ("" for none), whether creating or starting the
      recorder throws, and the current time. */
  datatype Browser = Browser(
    isSupported: bool,
    micGranted: bool,
    isTypeSupported: string -> bool,
    reportedMime: string -> string,
    failure: RecorderFailure,
    now: int)

  /** `startRecording`: clear the error; refuse when unsupported; report a
      denied microphone; otherwise create a recorder, asking for the chosen
      format when there is one, and start it. A throw from the constructor
      leaves everything but the error alone; a throw from `start()` comes
      after the recorder and start time have been stored. */
  function StartRecording(s: RecorderState, b: Browser): (r: StepResult)
    ensures r.emitted == NoEmission
    ensures !b.isSupported ==> r.next == s.(error := UnsupportedMessage)
    ensures b.isSupported && !b.micGranted ==> r.next == s.(error := DeniedMessage)
    // the error is cleared exactly when the recorder starts
    ensures r.next.error == "" <==> b.isSupported && b.micGranted && b.failure == NoFailure
    ensures !(b.isSupported && b.micGranted && b.failure == NoFailure) ==> r.next.isRecording == s.isRecording
    ensures b.isSupported && b.micGranted && b.failure == ConstructorThrows ==> r.next == s.(error := DeniedMessage)
    ensures b.isSupported && b.micGranted && b.failure == StartThrows ==>
      var picked := FirstSupported(true, b.isTypeSupported);
      && r.next.error == DeniedMessage && r.next.startedAt == b.now && r.next.durationMs == s.durationMs
      && r.next.recorder == Some(Recorder(picked, b.reportedMime(picked), Inactive))
    ensures b.isSupported && b.micGranted && b.failure == NoFailure ==>
      && r.next.isRecording && r.next.error == "" && r.next.startedAt == b.now
      && r.next.durationMs == s.durationMs
      && r.next.recorder.Some? && r.next.recorder.value.state == Recording
      // the request is the first supported candidate, or none at all
      && r.next.recorder.value.requested == FirstSupported(true, b.isTypeSupported)
      && (r.next.recorder.value.requested == "" || r.next.recorder.value.requested in MimeCandidates)
      // and the format is whatever the browser reports for that request
      && r.next.recorder.value.mimeType == b.reportedMime(r.next.recorder.value.requested)
  {
    if !b.isSupported then StepResult(s.(error := UnsupportedMessage), NoEmission)
    else if !b.micGranted then StepResult(s.(error := DeniedMessage), NoEmission)
    else
      // isSupported implies MediaRecorder exists
      var picked := FirstSupported(true, b.isTypeSupported);
      FirstFromIsCandidate(MimeCandidates, b.isTypeSupported);
      match b.failure
      case ConstructorThrows => StepResult(s.(error := DeniedMessage), NoEmission)
      case StartThrows =>
        // the refs were replaced before `start()` threw; the recorder never left `inactive`
        StepResult(
          s.(recorder := Some(Recorder(picked, b.reportedMime(picked), Inactive)),
             startedAt := b.now, error := DeniedMessage),
          NoEmission)
      case NoFailure =>
        StepResult(
          s.(recorder := Some(Recorder(picked, b.reportedMime(picked), Recording)),
             isRecording := true, error := "", startedAt := b.now),
          NoEmission)
  }

  lemma FirstFromIsCandidate(cands: seq<string>, ok: string -> bool)
    ensures FirstFrom(cands, ok) == "" || FirstFrom(cands, ok) in cands
  {
  }

  /** `stopRecording`: nothing without a recorder or with an inactive one;
      otherwise stop it and clear `isRecording`. */
  function StopRecording(s: RecorderState): (r: StepResult)
    ensures r.emitted == NoEmission
    ensures s.recorder.None? || s.recorder.value.state == Inactive ==> r.next == s
    ensures r.next.recorder.Some? ==> r.next.recorder.value.state == Inactive
    ensures r.next.recorder.Some? ==> s.recorder.Some? && r.next.recorder.value.mimeType == s.recorder.value.mimeType
    ensures s.recorder.Some? && s.recorder.value.state != Inactive ==> !r.next.isRecording
    ensures r.next.durationMs == s.durationMs && r.next.error == s.error
  {
    match s.recorder
    case None => StepResult(s, NoEmission)
    case Some(rec) =>
      if rec.state == Inactive then StepResult(s, NoEmission)
      else StepResult(s.(recorder := Some(rec.(state := Inactive)), isRecording := false), NoEmission)
  }

  /** The recorder's `onstop` callback at time `now`: record the elapsed time
      and hand the take, typed by `BlobType`, to `onChange`. */
  function OnStop(s: RecorderState, now: int): (r: StepResult)
    ensures s.recorder.None? ==> r == StepResult(s, NoEmission)
    ensures s.recorder.Some? ==>
      && r.emitted.Emit? && r.emitted.value.Some?
      && r.emitted.value.value.mimeType != ""
      && r.emitted.value.value.durationMs == now - s.startedAt == r.next.durationMs
      && (s.recorder.value.mimeType != "" ==> r.emitted.value.value.mimeType == s.recorder.value.mimeType)
    // only the displayed duration changes
    ensures r.next.recorder == s.recorder && r.next.isRecording == s.isRecording
    ensures r.next.error == s.error && r.next.startedAt == s.startedAt
  {
    match s.recorder
    case None => StepResult(s, NoEmission)
    case Some(rec) =>
      var elapsed := now - s.startedAt;
      StepResult(s.(durationMs := elapsed), Emit(Some(Take(BlobType(rec.mimeType), elapsed))))
  }

  /** `clearRecording`: reset the duration and tell the parent there is no
      take. */
  function ClearRecording(s: RecorderState): (r: StepResult)
    ensures r.emitted == Emit(None)
    ensures r.next.durationMs == 0 && FormatDuration(r.next.durationMs) == "00:00"
    // only the displayed duration changes
    ensures r.next.recorder == s.recorder && r.next.isRecording == s.isRecording
    ensures r.next.error == s.error && r.next.startedAt == s.startedAt
  {
    StepResult(s.(durationMs := 0), Emit(None))
  }

  /** Clearing twice is clearing once, and clearing after a take has been
      delivered forgets its duration: the label reads 00:00 whatever came
      before. */
  lemma ClearForgetsTake(s: RecorderState, now: int)
    ensures ClearRecording(ClearRecording(s).next) == ClearRecording(s)
    ensures ClearRecording(OnStop(s, now).next).next == ClearRecording(s).next
  {
  }

  /** Stopping twice is stopping once: the second stop meets the guard. */
  lemma StopIdempotent(s: RecorderState)
    ensures StopRecording(StopRecording(s).next) == StepResult(StopRecording(s).next, NoEmission)
  {
  }

  /** A take produced after a start and a stop is typed by what the browser
      reports for the chosen format, with the fallback when it reports
      nothing; when the browser reports the format it was asked for, the
      take carries that first supported candidate. */
  lemma TakeUsesPickedFormat(s: RecorderState, b: Browser, now: int)
    requires b.isSupported && b.micGranted && b.failure == NoFailure
    ensures var picked := FirstSupported(true, b.isTypeSupported);
      var stopped := StopRecording(StartRecording(s, b).next).next;
      var take := OnStop(stopped, now).emitted;
      && take.Emit? && take.value.Some?
      && take.value.value.mimeType == BlobType(b.reportedMime(picked))
      && take.value.value.durationMs == now - b.now
      && (picked != "" && b.reportedMime(picked) == picked ==> take.value.value.mimeType == picked && picked in MimeCandidates)
      && (b.reportedMime(picked) == "" ==> take.value.value.mimeType == FallbackBlobType)
  {
    FirstFromIsCandidate(MimeCandidates, b.isTypeSupported);
  }

  /** A recorder whose `start()` threw never records: stopping it meets the
      inactive guard, so no take reaches the parent. */
  lemma FailedStartRecordsNothing(s: RecorderState, b: Browser)
    requires b.isSupported && b.micGranted && b.failure == StartThrows
    ensures var started := StartRecording(s, b).next;
      && started.error == DeniedMessage
      && StopRecording(started) == StepResult(started, NoEmission)
  {
  }
}
